=== FILE: README.md ===
# Dang That's Delicious — a Dafny model of the store rules

Dang That's Delicious is an Express/Mongoose web app. Users add, edit, heart
and review restaurants ("stores"). This project models the parts of it that
are rules rather than plumbing, as pure functions over in-memory sequences:

- the `Store` schema, meaning its trim setters, defaults and `required`
  validators (`StoreModel`);
- the `pre("save")` hook that gives every store a URL slug. It turns the name
  into a slug, counts the stored slugs of the same family, and appends
  `-(count+1)` when that count is non-zero (`Slugs`, `StoreModel`);
- the two aggregation pipelines. `getTopStores` joins reviews, keeps stores
  with two or more reviews, averages, sorts and takes ten. `getTagsList`
  unwinds, groups, counts and sorts (`Aggregations`, on top of `Sorting`);
- the store controller rules (`StoreController`):
  - creating a store;
  - listing pages of four;
  - the owner check on edit;
  - the heart toggle;
  - the update path: `location.type` normalisation and the update validators;
  - the photo mimetype filter and file name;
  - the tag page;
- the authentication controller rules (`AuthController`):
  - the login gate;
  - the password-reset token lifecycle: issue on `forgot`, check on `reset`,
    consume on `updatePassword`;
  - the password confirmation check.

The database is a sequence of documents. A query is a function over that
sequence. The clock, generated ids, uuids and reset tokens are parameters.

Files:
- `wrappers.dfy` holds the `Option` and `Result` datatypes.
- `text.dfy` holds the JavaScript string operations the code relies on:
  - `trim` over the ECMAScript white-space and line-terminator set;
  - `split` and `startsWith`;
  - ASCII lower-casing;
  - decimal rendering of naturals.
- `sorting.dfy` holds a descending sort on sequences and the facts about
  windows and top-k prefixes of it.
- `slugs.dfy`, `store_model.dfy`, `aggregations.dfy`, `store_controller.dfy`
  and `auth_controller.dfy` hold the modules named above.

Mongo's `$sort` is not stable. The model sorts with an insertion sort. The
contracts of `Sorting` and `Aggregations` state only sortedness, permutation
and "top k", so they hold whatever order equal keys take. The listing's page
(`StoreController.PageIsWindow`) is stated as a window of the model's own
sorted sequence. Among stores with equal `created` it therefore fixes the
insertion sort's order, which the database does not promise.

Behaviour of the code that a reader of the app may not expect, and that the
model keeps:

- Slugs are not guaranteed unique. The suffix comes from the count of
  matching documents, not from the largest suffix in use.
- `required` on `coordinates` sits on each array element. An empty
  coordinates array therefore passes Mongoose's validation. The `2dsphere`
  index on `location` (models/Store.js:57) is a separate, later check by
  the database; see "## Left out".
- `skip` is not clamped. Page `0` gives skip `-4`.
- The edit path (`findOneAndUpdate`) never derives the slug from the name.
  It writes every path the posted body carries, a `slug` or an `author`
  included.
- The edit path checks no ownership: `POST /add/:id` reaches `updateStore`
  without `confirmOwner` (see "## Findings").

## Model

| member | source | states |
|---|---|---|
| Text.Trim | models/Store.js:9 | The trimmed string neither starts nor ends with ECMAScript white space. |
| Text.TrimKeepsInterior | models/Store.js:9 | The trimmed string is a contiguous slice of the input with only white space cut from either side. |
| Text.TrimEmptyIffBlank | models/Store.js:9-10 | A string trims to nothing exactly when it is all white space. |
| Text.TrimIdempotent | models/Store.js:9 | Trimming a trimmed string changes nothing. |
| Text.Split | controllers/storeController.js:33 | `split` yields at least one part, and no part contains the separator. |
| Text.SplitJoin | controllers/storeController.js:33 | Joining the parts of a split with the separator gives back the original string. |
| Text.SplitFirstPart | controllers/storeController.js:33 | The parts of `head + sep + tail` are `head` followed by the parts of `tail`, when `head` is free of the separator. |
| Text.SplitNoSeparator | controllers/storeController.js:33 | A string without the separator splits into itself alone. |
| Text.NatToString | models/Store.js:70 | The decimal rendering of the counter is a non-empty digit string with no leading zero. |
| Text.NatToStringRoundTrip | models/Store.js:70 | Reading the rendered digits back gives the number. |
| Text.NatToStringInjective | models/Store.js:70 | Distinct counts render to distinct suffixes. |
| Sorting.SortDesc | models/Store.js:108 | The sorted sequence is non-increasing in the key and is a permutation of its input. |
| Sorting.SortTakeIsTopK | models/Store.js:108-110 | Sorting then taking n keeps min(n, length) elements, in order. No element left out ranks above one kept. |
| Sorting.WindowOfSorted | controllers/storeController.js:59-62 | A skip/limit window of a sorted sequence is a sorted contiguous run of it. |
| Slugs.Slugify | models/Store.js:64 | The slug is lower-case `[a-z0-9-]` text with no leading, trailing or doubled hyphen. It is empty exactly when the name has no ASCII letter or digit. |
| Slugs.SlugRunShape | models/Store.js:64 | The scanner emits only slug characters, with hyphens only between kept characters: none trailing, none doubled. |
| Slugs.SlugifyIdempotent | models/Store.js:64 | Slugifying a slug returns it unchanged. |
| Slugs.SlugOfWord | models/Store.js:64 | A name that is one run of ASCII letters and digits slugs to that run in lower case. |
| Slugs.SlugOfTwoWords | models/Store.js:64 | Two such runs separated by a space slug to the lower-cased runs joined by one hyphen. |
| Slugs.InFamily | models/Store.js:66 | The slug pattern as a predicate, with the pattern's ASCII semantics: the candidate, lower-cased, is the base, or the base, a hyphen and digits. Its contract is stated by `Slugs.InFamilyIff`. |
| Slugs.Matching | models/Store.js:66-67 | The `find` with the pattern: the stored slugs in the family, in order. Its contract is stated by `Slugs.MatchingIsFamily`. |
| Slugs.InFamilyIff | models/Store.js:66 | The case-insensitive pattern `^(base)((-[0-9]*$)?)$` matches exactly the base, or the base followed by `-` and zero or more digits. |
| Slugs.FamilyAcceptsEmptySuffix | models/Store.js:66 | `base-` with no digits matches. |
| Slugs.FamilyAcceptsDigits | models/Store.js:66 | `base-` followed by any digits matches. |
| Slugs.FamilyRejectsNonDigit | models/Store.js:66 | `base-x…` with a non-digit `x` does not match. |
| Slugs.FamilyRejectsLongerWord | models/Store.js:66 | The base followed directly by a further letter or digit does not match. |
| Slugs.MatchingIsFamily | models/Store.js:66-67 | The `find` keeps each stored slug exactly as often as it occurs, when it matches, and never otherwise. |
| Slugs.CountMatches | models/Store.js:67-69 | The count is at most the number of stored slugs. It is zero exactly when no stored slug matches. |
| Slugs.AssignSlug | models/Store.js:64-71 | The assigned slug always belongs to its base's family and is never shorter than the base. |
| Slugs.NoMatchKeepsBase | models/Store.js:69 | With no matching slug stored, the slug is the base itself. |
| Slugs.SuffixIsCountPlusOne | models/Store.js:70 | With n ≥ 1 matches, the slug is `base-` followed by the decimal digits of n+1. |
| Slugs.TakenBaseIsNotReused | models/Store.js:69-71 | If a stored slug equals the base up to case, the assigned slug differs from the base. |
| Slugs.CountNotMaximum | models/Store.js:70 | For any base `b`, stored `b`, `b-2` and `b-7` give `b-4`. The suffix comes from the count, not the maximum. |
| Slugs.SlugCanCollide | models/Store.js:70 | For any base `b`, stored `b-2` and `b-3` give `b-3`, which is already taken. |
| Slugs.SecondTakesSameSuffix | models/Store.js:70 | For any base `b`, a single stored `b-2` gives `b-2` again. |
| StoreModel.NewDocument | models/Store.js:5-44 | A new document takes the trimmed name and the trimmed description, the posted tags or an empty array, the posted `created` or now, the posted photo and slug, and the posted coordinates and address with the location type defaulting to `"Point"`. Without a posted location it gets a `"Point"` location with no coordinates and no address. |
| StoreModel.Validate | models/Store.js:7-43 | Lists the violated `required` constraints in schema order: name, each missing coordinate element, address, author. Its contract is stated by `StoreModel.ValidateReportsViolations`. |
| StoreModel.ValidateReportsViolations | models/Store.js:7-43 | Validation reports no error exactly when the document is valid. It reports each message exactly when its field is missing: name, each coordinate element, address, author. |
| StoreModel.BlankNameRejected | models/Store.js:9-10 | A name of only white space is trimmed to nothing and fails `required`. |
| StoreModel.StoredSlugs | models/Store.js:67 | The slugs seen by the lookup are exactly the slugs stored. |
| StoreModel.StoredSlugsCountsDocuments | models/Store.js:67-70 | Each slug occurs in the lookup's list as many times as there are documents carrying it, so `storesWithSlug.length` counts documents, duplicates included. |
| StoreModel.SaveHook | models/Store.js:59-73 | The hook changes nothing but the slug. |
| StoreModel.Save | models/Store.js:5-73 | Saving fails with the validation errors exactly when the document is invalid. Otherwise only the slug may change. An unmodified name keeps the slug, and a modified name gets the slug of the name with the suffix for its family among the stored slugs. |
| StoreModel.HookSkipsUnmodifiedName | models/Store.js:59-63 | With an unmodified name the document, slug included, is left as it was. |
| StoreModel.HookKeepsFreeBase | models/Store.js:64-69 | When no stored slug is in the name's family, the slug is the slug of the name. |
| StoreModel.HookSuffixesByCount | models/Store.js:66-71 | With n ≥ 1 stored family members, the slug is the base with suffix n+1. |
| StoreModel.HookAvoidsTakenBase | models/Store.js:69-71 | If the base slug is already stored, the new slug differs from it. |
| Aggregations.ReviewsOf | models/Store.js:93-100 | The lookup joins exactly the reviews whose `store` is the store's id. |
| Aggregations.JoinAgreesWithAccounting | models/Store.js:93-105 | The joined reviews' number and rating total agree with a per-store count and sum over all reviews. |
| Aggregations.Mean | models/Store.js:105 | `$avg`: the mean times the number of reviews is their rating total. |
| Aggregations.Rank | models/Store.js:93-105 | The entry of a store is that store with exactly the reviews the join gives it (`ReviewsOf`), at least two of them, and an average that times their number gives their rating total. |
| Aggregations.Qualifying | models/Store.js:93-105 | Every ranked entry is a store with at least two joined reviews, and every such store is ranked. There are no more entries than stores. |
| Aggregations.QualifyingOncePerStore | models/Store.js:93-102 | A qualifying store is ranked exactly as many times as its document occurs in the collection: one entry per document. |
| Aggregations.QualifyingHasNoDuplicates | models/Store.js:93-102 | With no document twice in the collection, no store is ranked twice. |
| Aggregations.TopStores | models/Store.js:90-112 | The ranking holds at most ten entries and no more than there are stores. |
| Aggregations.QualifyingIff | models/Store.js:102 | A store passes the `reviews.1` filter exactly when it has two or more reviews. |
| Aggregations.RankIsMeanOfItsReviews | models/Store.js:105 | The average is the sum of the store's ratings divided by their number. |
| Aggregations.RankedEntryFacts | models/Store.js:93-105 | Each ranked entry belongs to a known store with at least two reviews, carries exactly that store's joined reviews, and its average is that store's rating sum over its review count. |
| Aggregations.TopStoresSpec | models/Store.js:90-112 | At most ten entries, each a store with two or more reviews, exactly its joined reviews and its mean rating. The list is non-increasing in the average and is a top-10 of all qualifying stores. |
| Aggregations.AverageWithinRatings | models/Store.js:105 | If all ratings lie within [lo, hi], so does every average. |
| Aggregations.TopStoresExample | models/Store.js:90-112 | Ratings 5 and 3 for one store and 4 for another leave only the first, at 4.0. |
| Aggregations.Unwind | models/Store.js:116 | A tag is unwound exactly when some store's tags array holds it. |
| Aggregations.UnwindOne | models/Store.js:116 | One store unwinds to exactly its tags array, repeats included, and a store without tags to nothing. |
| Aggregations.UnwindAppend | models/Store.js:116 | Unwinding two collections in a row gives the two unwound sequences in a row, so every store contributes exactly its own tags, in collection order. |
| Aggregations.Group | models/Store.js:117 | Folds the tags into groups in order of first occurrence, one more per occurrence. Its contract is stated by `Aggregations.GroupIsHistogram`. |
| Aggregations.TagsList | models/Store.js:114-120 | The result is non-increasing in the count and is a permutation of the groups of the unwound tags. |
| Aggregations.GroupIsHistogram | models/Store.js:116-117 | Grouping lists each distinct tag once, with its number of occurrences, and the counts sum to the number of tags. |
| Aggregations.TotalCountPermutation | models/Store.js:118 | Reordering groups keeps the counts' sum. |
| Aggregations.PermutedHistogram | models/Store.js:118 | Sorting the groups keeps them a histogram of the tags. |
| Aggregations.TagsListSpec | models/Store.js:114-120 | Each distinct tag of all stores appears once, with its occurrence count, duplicates included. The counts sum to the number of tags and are non-increasing. |
| Aggregations.TagsListExample | models/Store.js:114-120 | Tags `[a, b]` and `[a]` give `a:2, b:1`. |
| StoreController.CreateStore | controllers/storeController.js:43-51 | A created store is appended, and it is the document built from the posted body (trimmed name and description, location, photo, tags or an empty array, the posted `created` or now) with the user as author and only the slug set by the hook. Its slug is the slug of the trimmed name, suffixed for its family among the stored slugs, and the redirect is `/store/<slug>`. Creation fails exactly when the document is invalid. |
| StoreController.CreatedSlugsCanCollide | controllers/storeController.js:43-51 | Creating "Shop 2" and then "Shop" gives both stores the slug `shop-2`. |
| StoreController.PageNumber | controllers/storeController.js:54 | A given page parameter is used as it is, even 0; a missing one is 1. |
| StoreController.Skip | controllers/storeController.js:56 | The skip is `(page - 1) * 4`, and it is negative exactly when the page is below 1. |
| StoreController.PageOf | controllers/storeController.js:59-62 | A fetched page holds at most four stores, and is empty exactly when the skip reaches past the collection. |
| StoreController.GetStoresAsWritten | controllers/storeController.js:53-76 | The listing as written: the query fails exactly on a negative skip, a redirect goes to page `pages` and only from a page above 1, and a render reports the count and the requested page. |
| StoreController.GetStores | controllers/storeController.js:53-76 | The corrected listing: the same, except that a redirect goes to a page numbered 1 or more whose skip does not pass the end of the collection. |
| StoreController.Pages | controllers/storeController.js:65 | `pages` is the least number of four-store pages that holds `count` stores. |
| StoreController.ListingPage | controllers/storeController.js:54-62 | A rendered page is the window at skip `page*4-4`. It holds at most four stores, newest first, all from the collection. |
| StoreController.ListingCounts | controllers/storeController.js:63-65 | A rendered listing reports the store count and the ceiling of count/4 as pages. |
| StoreController.ListingsAgreeExceptRedirect | controllers/storeController.js:54-71 | The listing as written and the corrected one fail, redirect and render on the same requests, and render the same page, so the page and count facts hold for the handler as written. |
| StoreController.RedirectIffEmptyLaterPage | controllers/storeController.js:66-73 | The listing redirects exactly when the fetched page is empty and skip is non-zero. An empty first page renders. |
| StoreController.RedirectToPageZero | controllers/storeController.js:65-71 | With no stores, page 2 redirects to page 0, and page 0 asks for skip -4. |
| StoreController.RedirectLandsOnPage | controllers/storeController.js:66-75 | With the corrected target, following a redirect always renders. |
| StoreController.ConfirmOwner | controllers/storeController.js:78-82 | The check passes exactly when the store's author is the user, and fails with the owner message otherwise. |
| StoreController.FindById | controllers/storeController.js:85 | The lookup returns a store with the id, or reports that none exists. |
| StoreController.EditStore | controllers/storeController.js:83-90 | The edit form is shown exactly when the store exists and the user owns it. |
| StoreController.Pull | controllers/storeController.js:177-180 | `$pull` removes every occurrence of the id and keeps every other heart, with its multiplicity. |
| StoreController.HeartStore | controllers/storeController.js:175-184 | A hearted id is removed, an unhearted one is added exactly once, and other hearts are unchanged. |
| StoreController.HeartTwice | controllers/storeController.js:175-184 | Toggling twice restores membership. Starting from an unhearted id, it restores the list itself. |
| StoreController.ApplyUpdate | controllers/storeController.js:96-99 | The update keeps the id and sets the normalised location. Each of name, slug, description, tags, photo, author and created takes the posted value when the body carries it and keeps the stored one otherwise. |
| StoreController.UpdateErrors | controllers/storeController.js:96-99 | Lists the `required` violations among the paths the update sets: a posted empty name, each missing coordinate, a missing or empty address. |
| StoreController.UpdateStore | controllers/storeController.js:92-109 | A body without a location fails before anything is written. The update validators refuse exactly the bodies with a violation, reporting them. An update sets the location type to `"Point"`, keeps the id and the number of stores. Nothing checks the requesting user. |
| StoreController.UpdateForcesPoint | controllers/storeController.js:94 | Whatever type a valid body sends, the stored location type is `"Point"`. |
| StoreController.UpdateAcceptedIffValid | controllers/storeController.js:96-99 | On a store that satisfies the schema, an update is accepted exactly when the updated document satisfies it, and the updated document is what is stored. |
| StoreController.UpdateNeverReslugs | controllers/storeController.js:96-99 | The update never derives the slug from the name: the stored slug stays unless the body carries one, which is written as posted. Other stores are untouched. |
| StoreController.UpdateOwnStore | controllers/storeController.js:78-87 | The update behind the owner check: refused exactly when the store exists and the user is not its author. An accepted update was made by the author, and otherwise it is the update as written. |
| StoreController.NonOwnerCanUpdate | routes/index.js:20-25 | A valid body updates a store whoever posts it, while the owner check refuses a user who is not the author. |
| StoreController.FileFilter | controllers/storeController.js:10-17 | A file is accepted exactly when its mimetype starts with `image/`, and is refused with the filetype message otherwise. |
| StoreController.Resize | controllers/storeController.js:30-34 | Without a file the body is unchanged. With one, the photo is `<uuid>.<extension>`. |
| StoreController.Extension | controllers/storeController.js:33 | The extension never contains a `/`. |
| StoreController.PhotoName | controllers/storeController.js:34 | The name is the uuid, a dot, and the extension. |
| StoreController.AcceptedPhotoName | controllers/storeController.js:33-34 | For `image/<subtype>` the photo is `<uuid>.<subtype>`. |
| StoreController.AcceptedFileHasExtension | controllers/storeController.js:10-17 | Every accepted file's extension is the text after `image/` up to the next `/`. |
| StoreController.SlashlessMimetype | controllers/storeController.js:33-34 | A mimetype without `/` is refused. Its extension would be `undefined`. |
| StoreController.TagQuery | controllers/storeController.js:120-123 | A non-empty tag selects the stores whose tags array holds it; otherwise the stores that have a tags array. |
| StoreController.StoresMatching | controllers/storeController.js:120-123 | With a tag, exactly the stores whose tags contain it are kept. Without one, exactly the stores that have a tags field. Multiplicity is preserved. |
| StoreController.GetStoreByTag | controllers/storeController.js:119-127 | The tag page shows the tags list and exactly the stores the tag query selects, each as many times as the collection holds it. |
| StoreController.UntaggedQueryListsCreated | controllers/storeController.js:121 | Every created store has a tags field, so the untagged query lists it. |
| AuthController.IsLogin | controllers/authController.js:21-30 | The gate continues exactly when the request is authenticated, and otherwise redirects to `/login`. |
| AuthController.FindByEmail | controllers/authController.js:34 | The lookup finds the first user with the email, or reports that none has it. |
| AuthController.Forgot | controllers/authController.js:32-56 | `forgot` always ends on `/login`. An unknown email changes no user. |
| AuthController.ForgotIssuesToken | controllers/authController.js:40-42 | A known email's user is the stored user with only the token set and the expiry set to now + 3600000, and no other user changes. |
| AuthController.Accepts | controllers/authController.js:59-62 | A user matches the reset query when the stored token equals the given one and the stored expiry is strictly after now. |
| AuthController.FindByToken | controllers/authController.js:59-62 | A user is matched only if the token equals the stored token and the stored expiry is strictly after now. |
| AuthController.IssuedTokenWindow | controllers/authController.js:41 | A token issued at t is accepted at `now` exactly when now < t + 3600000. |
| AuthController.ReissueRevokesEarlierToken | controllers/authController.js:40-42 | A second `forgot` for the same email makes the earlier token stop working. |
| AuthController.Reset | controllers/authController.js:58-69 | The reset form is shown exactly when some user accepts the token. Otherwise the user goes to `/login`. |
| AuthController.ResetAsWritten | controllers/authController.js:58-69 | The handler as written sends one response and changes no user. It throws exactly when no user accepts the token. |
| AuthController.ResetThrowsAfterRedirect | controllers/authController.js:63-68 | For an invalid token, the handler as written sends the redirect and then throws when the render tries to send a second response. The corrected handler only redirects. |
| AuthController.ResetAgreesOnValidToken | controllers/authController.js:58-69 | On a valid token, both versions show the form and nothing else. |
| AuthController.ConfirmedPasswords | controllers/authController.js:71-77 | The check continues exactly when the two fields are strictly equal, with two missing fields counting as equal. Otherwise it redirects back. |
| AuthController.UpdatePassword | controllers/authController.js:79-98 | Rejected exactly when no user accepts the token. Otherwise the user gets the new password, loses token and expiry, and is sent to `/`. |
| AuthController.UpdatePasswordConsumesToken | controllers/authController.js:88-93 | After an update the user is the stored user with only the new password and both reset fields cleared. It accepts no token at any time, and no other user changes. A token nobody else held is rejected from then on. |
| AuthController.UpdatePasswordAsWritten | controllers/authController.js:79-98 | The handler as written throws exactly when no user accepts the token, after redirecting to `/login` and with no user changed. Otherwise it sends the user to `/`. |
| AuthController.UpdatePasswordInvalidToken | controllers/authController.js:84-88 | For an invalid token, the handler as written throws after redirecting. The corrected handler rejects it. Neither changes a user. |
| AuthController.UpdatePasswordAgreesOnValidToken | controllers/authController.js:79-98 | On a valid token, the handler as written and the corrected one do the same. |

## Left out

- Slugs.Slugify: approximates the `slugs` library rather than reproducing
  it. It keeps ASCII letters and digits, lower-cases them, and joins the runs
  with single hyphens. The real library also transliterates accented and
  other non-ASCII letters. The hook relies only on the result being
  lower-case `[a-z0-9-]` text.
- Multer buffering, jimp resizing and the file write. These are I/O and image
  processing. Only the mimetype predicate and the file name are modelled, and
  the uuid is a parameter.
- `searchStores` text search. The scoring belongs to Mongo's text index,
  which is not visible.
- `mapStores` `$near` proximity. It needs floating-point spherical distance
  computed by the storage engine.
- The `reviews` virtual and the autopopulate hooks. The review join is an
  explicit function (`Aggregations.ReviewsOf`) instead.
- Passport `login`/`logout`/`req.login`, crypto token generation, password
  hashing inside `setPassword`, and mail. These are foreign libraries. The
  token and the clock are parameters, and the stored password stands for
  whatever `setPassword` derives.
- Flash messages and view rendering. Only the redirect target or the view
  name is kept.
- The race between the slug lookup and the write. Concurrent saves are out of
  scope for a sequential model.
- StoreModel.Save: the `2dsphere` index on `location` (models/Store.js:57)
  is not modelled. On insert or update the database refuses a document
  whose `location` is not a GeoJSON point with two in-range numbers, for
  example an empty `coordinates` array. `Save` accepts such a document,
  because it models Mongoose's validation only. The same holds for
  StoreController.CreateStore and StoreController.UpdateStore.
- StoreController.CreateStore: accepts a location that the `2dsphere` index
  would refuse at write time (see `StoreModel.Save`).
- Slugs.InFamily: models the slug pattern's ASCII semantics only. The
  database's PCRE engine lets `$` match before a final line feed, so
  `shop\n` is in the family of `shop` there but not here. With Unicode
  support its caseless matching can also fold some non-ASCII letters onto
  ASCII ones (the Kelvin sign onto `k`), and those are not folded here
  either. Slugs made by `Slugify` hold neither; only a slug posted on the
  edit path can.
- StoreController.UpdateStore: does not run the `trim` setters on the update.
  Mongoose runs setters on update queries only from version 5 on (or with
  `runSettersOnQuery`), and the version is not pinned here. So a posted
  name of spaces is written untrimmed, where a newer Mongoose would trim it
  and refuse it as empty.
- StoreController.UpdateErrors: checks `required` on the posted name, the
  posted coordinates and the posted address. The exact set of nested paths
  Mongoose's update validators visit when the whole `location` object is set
  is not modelled. A posted `author` is assumed to be a valid id.
- A posted `_id` and any path outside the schema. Only the schema's own paths
  are carried by a body.
- `homePage`, `addStore`, `getStoreBySlug`, `getHearts`, `getStoreByHeart`
  and `getTopStores` in the controller. They only look up and render. The
  pipeline behind `getTopStores` is modelled in `Aggregations`.
- Non-numeric and fractional page parameters. `StoreController.PageNumber`
  takes an optional integer. JavaScript's string-to-number coercion is not
  modelled.
- Casting of coordinate values to numbers. A coordinate is present or
  missing.
- `userController.js`, the browser autocomplete module, and the routes
  other than the edit route. They are not part of this model.
- Aggregations.Rank: does not model `$avg` as a double. The average is an
  exact `real`.

## Findings

| source | as written | input that shows it | evidently intended | confidence | as-written member | corrected member |
|---|---|---|---|---|---|---|
| controllers/storeController.js:65-71 | The listing redirects an empty later page to page `pages`, which is 0 when there are no stores. Page 0 then asks for skip -4. | No stores, request `/stores/page/2` | Redirect to page 1 when there are no pages | not executed | StoreController.RedirectToPageZero | StoreController.RedirectLandsOnPage |
| controllers/authController.js:63-68 | `reset` does not return after redirecting on an invalid token. The following `render` tries to send a second response and throws, so the request ends in an error after the redirect. | Any token no user holds, or an expired one | End the handler after the redirect | not executed | AuthController.ResetThrowsAfterRedirect | AuthController.Reset |
| controllers/authController.js:84-88 | `updatePassword` does not return after the redirect, and then reads `setPassword` from `null`. | Any token no user holds, or an expired one | End the handler after the redirect | not executed | AuthController.UpdatePasswordInvalidToken | AuthController.UpdatePassword |
| routes/index.js:20-25 | The edit form posts to `/add/:id`, which runs `updateStore` with no login gate and no `confirmOwner`. Anyone can overwrite any store, author included. | A user who is not the author posts a valid body to `/add/<id>` | Check ownership as `editStore` does before updating | not executed | StoreController.NonOwnerCanUpdate | StoreController.UpdateOwnStore |

=== FILE: aggregations.dfy ===
/** The two aggregation pipelines of the store model, written as explicit
    join, filter, map, sort and take over in-memory collections:
    `getTopStores` ($lookup, $match, $addFields, $sort, $limit) and
    `getTagsList` ($unwind, $group, $sort). */
module Aggregations {
  import opened Wrappers
  import opened StoreModel
  import Sorting

  /** The review fields the pipelines read: the reviewed store and its rating. */
  datatype Review = Review(store: Id, rating: int)

  /** A store with its joined reviews and their mean rating. */
  datatype RankedStore = RankedStore(store: Store, reviews: seq<Review>, averageRating: real)

  /** `$limit` of the top-stores pipeline. */
  const TopLimit: nat := 10

  /** Smallest number of reviews a ranked store has (`reviews.1` exists). */
  const MinReviews: nat := 2

  /** The reviews whose `store` is `id`, in collection order (`$lookup`). */
  function ReviewsOf(reviews: seq<Review>, id: Id): (r: seq<Review>)
    ensures forall x :: x in r <==> x in reviews && x.store == id
    ensures |r| <= |reviews|
  {
    if reviews == [] then []
    else (if reviews[0].store == id then [reviews[0]] else []) + ReviewsOf(reviews[1..], id)
  }

  function RatingTotal(reviews: seq<Review>): int {
    if reviews == [] then 0 else reviews[0].rating + RatingTotal(reviews[1..])
  }

  /** Reference accounting over the whole review collection, without a join:
      how many reviews name `id`, and the sum of their ratings. */
  function CountFor(reviews: seq<Review>, id: Id): nat {
    if reviews == [] then 0
    else (if reviews[0].store == id then 1 else 0) + CountFor(reviews[1..], id)
  }

  function RatingSumFor(reviews: seq<Review>, id: Id): int {
    if reviews == [] then 0
    else (if reviews[0].store == id then reviews[0].rating else 0) + RatingSumFor(reviews[1..], id)
  }

  /** The join and the reference accounting agree. */
  lemma {:induction false} JoinAgreesWithAccounting(reviews: seq<Review>, id: Id)
    ensures |ReviewsOf(reviews, id)| == CountFor(reviews, id)
    ensures RatingTotal(ReviewsOf(reviews, id)) == RatingSumFor(reviews, id)
  {
    if reviews != [] {
      JoinAgreesWithAccounting(reviews[1..], id);
      var head := if reviews[0].store == id then [reviews[0]] else [];
      RatingTotalAppend(head, ReviewsOf(reviews[1..], id));
    }
  }

  lemma {:induction false} RatingTotalAppend(a: seq<Review>, b: seq<Review>)
    ensures RatingTotal(a + b) == RatingTotal(a) + RatingTotal(b)
  {
    if a == [] {
      assert a + b == b;
    } else {
      assert (a + b)[1..] == a[1..] + b;
      RatingTotalAppend(a[1..], b);
    }
  }

  /** `$avg` over the joined ratings. */
  /** `m` is the mean rating of `reviews`: times their number it gives
      their total. */
  predicate IsMeanOf(m: real, reviews: seq<Review>) {
    m * |reviews| as real == RatingTotal(reviews) as real
  }

  function Mean(reviews: seq<Review>): (m: real)
    requires reviews != []
    ensures IsMeanOf(m, reviews)
  {
    RatingTotal(reviews) as real / |reviews| as real
  }

  /** The document `$lookup` and `$addFields` make of one store. */
  function Rank(store: Store, reviews: seq<Review>): (r: RankedStore)
    requires |ReviewsOf(reviews, store.id)| >= MinReviews
    ensures r.store == store && r.reviews == ReviewsOf(reviews, store.id)
    ensures |r.reviews| >= MinReviews
    ensures IsMeanOf(r.averageRating, r.reviews)
  {
    var joined := ReviewsOf(reviews, store.id);
    RankedStore(store, joined, Mean(joined))
  }

  /** The stores that pass `$match`, ranked, in collection order. */
  function Qualifying(stores: seq<Store>, reviews: seq<Review>): (r: seq<RankedStore>)
    ensures forall e :: e in r ==>
              e.store in stores && |ReviewsOf(reviews, e.store.id)| >= MinReviews
              && e == Rank(e.store, reviews)
    ensures forall s :: s in stores && |ReviewsOf(reviews, s.id)| >= MinReviews ==>
              Rank(s, reviews) in r
    ensures |r| <= |stores|
  {
    if stores == [] then []
    else
      var s := stores[0];
      var rest := Qualifying(stores[1..], reviews);
      assert forall x :: x in stores ==> x == s || x in stores[1..];
      if |ReviewsOf(reviews, s.id)| >= MinReviews then [Rank(s, reviews)] + rest else rest
  }

  /** `$lookup` and `$match` keep one entry per store document: a qualifying
      store is ranked as often as it occurs in the collection, and any other
      entry does not occur. */
  lemma {:induction false} QualifyingOncePerStore(stores: seq<Store>, reviews: seq<Review>, s: Store)
    requires |ReviewsOf(reviews, s.id)| >= MinReviews
    ensures multiset(Qualifying(stores, reviews))[Rank(s, reviews)] == multiset(stores)[s]
    decreases |stores|
  {
    if stores != [] {
      QualifyingOncePerStore(stores[1..], reviews, s);
      QualifyingCountStep(stores, reviews, s);
      CountStep(stores, s);
    }
  }

  /** The first store adds one entry for itself, if it qualifies, to the
      entries of the others. */
  lemma QualifyingCountStep(stores: seq<Store>, reviews: seq<Review>, s: Store)
    requires stores != [] && |ReviewsOf(reviews, s.id)| >= MinReviews
    ensures multiset(Qualifying(stores, reviews))[Rank(s, reviews)]
            == (if stores[0] == s then 1 else 0) + multiset(Qualifying(stores[1..], reviews))[Rank(s, reviews)]
  {
    var head := if |ReviewsOf(reviews, stores[0].id)| >= MinReviews then [Rank(stores[0], reviews)] else [];
    assert multiset(Qualifying(stores, reviews)) == multiset(head) + multiset(Qualifying(stores[1..], reviews)) by {
      QualifyingCons(stores, reviews);
    }
    assert multiset(head)[Rank(s, reviews)] == if stores[0] == s then 1 else 0 by {
      if head != [] {
        assert Rank(stores[0], reviews).store == stores[0];
        assert Rank(s, reviews).store == s;
      }
    }
  }

  lemma CountStep(stores: seq<Store>, s: Store)
    requires stores != []
    ensures multiset(stores)[s] == (if stores[0] == s then 1 else 0) + multiset(stores[1..])[s]
  {
    assert stores == [stores[0]] + stores[1..];
  }

  lemma QualifyingCons(stores: seq<Store>, reviews: seq<Review>)
    requires stores != []
    ensures var head := if |ReviewsOf(reviews, stores[0].id)| >= MinReviews then [Rank(stores[0], reviews)] else [];
            Qualifying(stores, reviews) == head + Qualifying(stores[1..], reviews)
  {
  }

  /** With no store document twice in the collection, no store is ranked
      twice. */
  lemma QualifyingHasNoDuplicates(stores: seq<Store>, reviews: seq<Review>)
    requires forall i, j :: 0 <= i < j < |stores| ==> stores[i] != stores[j]
    ensures forall i, j :: 0 <= i < j < |Qualifying(stores, reviews)| ==>
              Qualifying(stores, reviews)[i].store != Qualifying(stores, reviews)[j].store
  {
    var q := Qualifying(stores, reviews);
    forall i, j | 0 <= i < j < |q|
      ensures q[i].store != q[j].store
    {
      if q[i].store == q[j].store {
        var s := q[i].store;
        assert q[i] == Rank(s, reviews) && q[j] == Rank(s, reviews) by {
          assert q[i] in q && q[j] in q;
        }
        QualifyingOncePerStore(stores, reviews, s);
        assert q == q[..j] + q[j..];
        assert q[i] in q[..j];
        assert q[j] in q[j..];
        assert multiset(q)[Rank(s, reviews)] >= 2;
        assert s in stores by {
          assert q[i] in q;
        }
        StoreOccursOnce(stores, s);
      }
    }
  }

  lemma {:induction false} StoreOccursOnce(stores: seq<Store>, s: Store)
    requires forall i, j :: 0 <= i < j < |stores| ==> stores[i] != stores[j]
    ensures multiset(stores)[s] <= 1
    decreases |stores|
  {
    if stores != [] {
      var rest := stores[1..];
      assert stores == [stores[0]] + rest;
      assert forall i, j :: 0 <= i < j < |rest| ==> rest[i] != rest[j] by {
        assert forall i :: 0 <= i < |rest| ==> rest[i] == stores[i + 1];
      }
      StoreOccursOnce(rest, s);
      if stores[0] == s {
        assert s !in rest by {
          assert forall j :: 0 <= j < |rest| ==> rest[j] == stores[j + 1] != stores[0];
        }
      }
    }
  }

  function ByAverage(e: RankedStore): real {
    e.averageRating
  }

  /** `getTopStores`. */
  function TopStores(stores: seq<Store>, reviews: seq<Review>): (r: seq<RankedStore>)
    ensures |r| <= TopLimit && |r| <= |stores|
  {
    Sorting.Take(Sorting.SortDesc(Qualifying(stores, reviews), ByAverage), TopLimit)
  }

  /** Everything the ranking returns comes from the candidates. */
  lemma TopStoresFromQualifying(stores: seq<Store>, reviews: seq<Review>, e: RankedStore)
    requires e in TopStores(stores, reviews)
    ensures e in Qualifying(stores, reviews)
  {
    var q := Qualifying(stores, reviews);
    var sorted := Sorting.SortDesc(q, ByAverage);
    var r := Sorting.Take(sorted, TopLimit);
    assert e in sorted;
    assert e in multiset(sorted);
  }

  /** A ranked store's average is the mean of exactly the ratings naming it. */
  lemma RankIsMeanOfItsReviews(store: Store, reviews: seq<Review>)
    requires |ReviewsOf(reviews, store.id)| >= MinReviews
    ensures CountFor(reviews, store.id) >= MinReviews
    ensures Rank(store, reviews).averageRating
            == RatingSumFor(reviews, store.id) as real / CountFor(reviews, store.id) as real
  {
    JoinAgreesWithAccounting(reviews, store.id);
  }

  /** What a ranked entry states about its store: at least two reviews,
      and the mean of exactly the ratings that name it. */
  lemma RankedEntryFacts(stores: seq<Store>, reviews: seq<Review>, e: RankedStore)
    requires e in Qualifying(stores, reviews)
    ensures e.store in stores
    ensures CountFor(reviews, e.store.id) >= MinReviews
    ensures e.reviews == ReviewsOf(reviews, e.store.id)
    ensures e.averageRating
            == RatingSumFor(reviews, e.store.id) as real / CountFor(reviews, e.store.id) as real
  {
    assert e == Rank(e.store, reviews);
    RankIsMeanOfItsReviews(e.store, reviews);
  }

  /** What `getTopStores` returns, up to the order of equal averages: at
      most ten stores, each with at least two reviews and the mean of exactly
      the ratings that name it, highest average first, and no store left out
      that has a higher average than one kept. */
  lemma TopStoresSpec(stores: seq<Store>, reviews: seq<Review>)
    ensures |TopStores(stores, reviews)| <= TopLimit
    ensures forall e :: e in TopStores(stores, reviews) ==>
              && e.store in stores
              && CountFor(reviews, e.store.id) >= MinReviews
              && e.reviews == ReviewsOf(reviews, e.store.id)
              && e.averageRating
                 == RatingSumFor(reviews, e.store.id) as real / CountFor(reviews, e.store.id) as real
    ensures Sorting.SortedDesc(TopStores(stores, reviews), ByAverage)
    ensures Sorting.IsTopK(Qualifying(stores, reviews), TopLimit, ByAverage, TopStores(stores, reviews))
  {
    Sorting.SortTakeIsTopK(Qualifying(stores, reviews), TopLimit, ByAverage);
    forall e | e in TopStores(stores, reviews)
      ensures && e.store in stores
              && CountFor(reviews, e.store.id) >= MinReviews
              && e.reviews == ReviewsOf(reviews, e.store.id)
              && e.averageRating
                 == RatingSumFor(reviews, e.store.id) as real / CountFor(reviews, e.store.id) as real
    {
      TopStoresFromQualifying(stores, reviews, e);
      RankedEntryFacts(stores, reviews, e);
    }
  }

  /** Every store with at least two reviews is a candidate for the ranking,
      and only those are. */
  lemma QualifyingIff(stores: seq<Store>, reviews: seq<Review>, s: Store)
    requires s in stores
    ensures CountFor(reviews, s.id) >= MinReviews <==>
            exists e :: e in Qualifying(stores, reviews) && e.store == s
  {
    JoinAgreesWithAccounting(reviews, s.id);
    if CountFor(reviews, s.id) >= MinReviews {
      assert Rank(s, reviews) in Qualifying(stores, reviews);
    }
  }

  lemma {:induction false} RatingTotalBounds(reviews: seq<Review>, lo: int, hi: int)
    requires forall x :: x in reviews ==> lo <= x.rating <= hi
    ensures lo * |reviews| <= RatingTotal(reviews) <= hi * |reviews|
  {
    if reviews != [] {
      var n := |reviews[1..]|;
      RatingTotalBounds(reviews[1..], lo, hi);
      assert lo <= reviews[0].rating <= hi by {
        assert reviews[0] in reviews;
      }
      assert RatingTotal(reviews) == reviews[0].rating + RatingTotal(reviews[1..]);
      MulSucc(lo, n);
      MulSucc(hi, n);
    }
  }

  lemma MulSucc(c: int, n: nat)
    ensures c * (n + 1) == c * n + c
  {
  }

  /** When every rating lies in a range, so does every reported average. */
  lemma AverageWithinRatings(stores: seq<Store>, reviews: seq<Review>, lo: int, hi: int)
    requires forall x :: x in reviews ==> lo <= x.rating <= hi
    ensures forall e :: e in TopStores(stores, reviews) ==>
              lo as real <= e.averageRating <= hi as real
  {
    forall e | e in TopStores(stores, reviews)
      ensures lo as real <= e.averageRating <= hi as real
    {
      TopStoresFromQualifying(stores, reviews, e);
      var joined := ReviewsOf(reviews, e.store.id);
      RatingTotalBounds(joined, lo, hi);
      MeanWithin(joined, lo, hi);
    }
  }

  lemma MeanWithin(reviews: seq<Review>, lo: int, hi: int)
    requires reviews != []
    requires lo * |reviews| <= RatingTotal(reviews) <= hi * |reviews|
    ensures lo as real <= Mean(reviews) <= hi as real
  {
    CastMul(lo, |reviews|);
    CastMul(hi, |reviews|);
    DivBetween(lo as real, RatingTotal(reviews) as real, hi as real, |reviews| as real);
  }

  lemma CastMul(a: int, b: int)
    ensures (a * b) as real == a as real * b as real
  {
  }

  lemma DivBetween(lo: real, t: real, hi: real, n: real)
    requires n > 0.0 && lo * n <= t <= hi * n
    ensures lo <= t / n <= hi
  {
  }

  /** Reviews [5, 3] for one store and [4] for another: only the first is
      ranked, with average 4. */
  lemma TopStoresExample(a: Store, b: Store)
    requires a.id != b.id
    ensures TopStores([a, b], [Review(a.id, 5), Review(a.id, 3), Review(b.id, 4)])
            == [RankedStore(a, [Review(a.id, 5), Review(a.id, 3)], 4.0)]
  {
    var reviews := [Review(a.id, 5), Review(a.id, 3), Review(b.id, 4)];
    assert ReviewsOf(reviews[2..], a.id) == [];
    assert ReviewsOf(reviews, a.id) == [Review(a.id, 5), Review(a.id, 3)];
    assert ReviewsOf(reviews, b.id) == [Review(b.id, 4)];
    assert [a, b][1..] == [b];
    assert Qualifying([b], reviews) == [];
    assert Qualifying([a, b], reviews) == [Rank(a, reviews)];
    assert [Review(a.id, 5), Review(a.id, 3)][1..] == [Review(a.id, 3)];
    assert RatingTotal([Review(a.id, 3)]) == 3;
    assert RatingTotal([Review(a.id, 5), Review(a.id, 3)]) == 8;
  }

  /** One group of `getTagsList`: a tag and how often it occurs. */
  datatype TagCount = TagCount(tag: string, count: nat)

  /** `$unwind: "$tags"`: one entry per element of every store's tags; a
      store without the field, or with an empty array, contributes nothing. */
  function Unwind(stores: seq<Store>): (tags: seq<string>)
    ensures forall t :: t in tags <==>
              exists k :: 0 <= k < |stores| && stores[k].tags.Some? && t in stores[k].tags.value
  {
    if stores == [] then []
    else
      assert forall k :: 1 <= k < |stores| ==> stores[k] == stores[1..][k - 1];
      stores[0].tags.GetOr([]) + Unwind(stores[1..])
  }

  /** One store unwinds to exactly its tags array, repeats and order kept. */
  lemma UnwindOne(store: Store)
    ensures Unwind([store]) == store.tags.GetOr([])
  {
    assert [store][1..] == [];
  }

  /** Unwinding distributes over concatenation of collections: each store
      contributes its own tags, in collection order, and nothing else. */
  lemma {:induction false} UnwindAppend(a: seq<Store>, b: seq<Store>)
    ensures Unwind(a + b) == Unwind(a) + Unwind(b)
  {
    if a == [] {
      assert a + b == b;
    } else {
      assert (a + b)[1..] == a[1..] + b;
      UnwindAppend(a[1..], b);
    }
  }

  function TagsOf(groups: seq<TagCount>): (tags: seq<string>)
    ensures |tags| == |groups|
    ensures forall i :: 0 <= i < |groups| ==> tags[i] == groups[i].tag
  {
    seq(|groups|, i requires 0 <= i < |groups| => groups[i].tag)
  }

  predicate DistinctTags(groups: seq<TagCount>) {
    forall i, j :: 0 <= i < j < |groups| ==> groups[i].tag != groups[j].tag
  }

  /** The sum of the group counts. */
  function TotalCount(groups: seq<TagCount>): nat {
    if groups == [] then 0 else TotalCount(groups[..|groups| - 1]) + groups[|groups| - 1].count
  }

  /** The position of the group of `t`. */
  function GroupIndex(groups: seq<TagCount>, t: string): (i: nat)
    requires t in TagsOf(groups)
    ensures i < |groups| && groups[i].tag == t
  {
    if groups[0].tag == t then 0
    else
      assert t in TagsOf(groups[1..]) by {
        var i :| 0 <= i < |groups| && TagsOf(groups)[i] == t;
        assert TagsOf(groups[1..])[i - 1] == t;
      }
      1 + GroupIndex(groups[1..], t)
  }

  /** Counts one more occurrence of `t`: its group grows by one, or a new
      group with count 1 is appended. */
  function Bump(groups: seq<TagCount>, t: string): seq<TagCount> {
    if t in TagsOf(groups) then
      var i := GroupIndex(groups, t);
      groups[i := TagCount(t, groups[i].count + 1)]
    else
      groups + [TagCount(t, 1)]
  }

  /** `$group: {_id: "$tags", count: {$sum: 1}}`, groups in order of first
      occurrence. */
  function Group(tags: seq<string>): seq<TagCount> {
    if tags == [] then []
    else Bump(Group(tags[..|tags| - 1]), tags[|tags| - 1])
  }

  function ByCount(g: TagCount): real {
    g.count as real
  }

  /** `getTagsList`. */
  function TagsList(stores: seq<Store>): (r: seq<TagCount>)
    ensures Sorting.SortedDesc(r, ByCount)
    ensures multiset(r) == multiset(Group(Unwind(stores)))
  {
    Sorting.SortDesc(Group(Unwind(stores)), ByCount)
  }

  /** `groups` is a histogram of `tags`: one group per distinct tag, each
      with the number of occurrences of its tag, counts summing to the
      number of tags. */
  ghost predicate Histogram(groups: seq<TagCount>, tags: seq<string>) {
    && DistinctTags(groups)
    && (forall i :: 0 <= i < |groups| ==> groups[i].count == multiset(tags)[groups[i].tag])
    && (forall t :: t in tags <==> t in TagsOf(groups))
    && TotalCount(groups) == |tags|
  }

  lemma {:induction false} TotalCountAppend(a: seq<TagCount>, b: seq<TagCount>)
    ensures TotalCount(a + b) == TotalCount(a) + TotalCount(b)
    decreases |b|
  {
    if b == [] {
      assert a + b == a;
    } else {
      assert (a + b)[..|a + b| - 1] == a + b[..|b| - 1];
      TotalCountAppend(a, b[..|b| - 1]);
    }
  }

  lemma TotalCountUpdate(groups: seq<TagCount>, i: nat, g: TagCount)
    requires i < |groups|
    ensures TotalCount(groups[i := g]) + groups[i].count == TotalCount(groups) + g.count
  {
    var before := groups[..i];
    var after := groups[i + 1..];
    assert groups == before + [groups[i]] + after;
    assert groups[i := g] == before + [g] + after;
    TotalCountAppend(before + [groups[i]], after);
    TotalCountAppend(before + [g], after);
    TotalCountAppend(before, [groups[i]]);
    TotalCountAppend(before, [g]);
    assert TotalCount([g]) == g.count by {
      assert [g][..0] == [];
    }
    assert TotalCount([groups[i]]) == groups[i].count by {
      assert [groups[i]][..0] == [];
    }
  }

  /** Counting one more tag keeps the histogram. */
  lemma BumpKeepsHistogram(groups: seq<TagCount>, tags: seq<string>, t: string)
    requires Histogram(groups, tags)
    ensures Histogram(Bump(groups, t), tags + [t])
  {
    if t in TagsOf(groups) {
      BumpExisting(groups, tags, t);
    } else {
      BumpNew(groups, tags, t);
    }
  }

  /** A tag seen before: its group grows by one, nothing else moves. */
  lemma BumpExisting(groups: seq<TagCount>, tags: seq<string>, t: string)
    requires Histogram(groups, tags) && t in TagsOf(groups)
    ensures Histogram(Bump(groups, t), tags + [t])
  {
    var more := tags + [t];
    var i := GroupIndex(groups, t);
    var r := groups[i := TagCount(t, groups[i].count + 1)];
    assert Bump(groups, t) == r;
    assert multiset(more) == multiset(tags) + multiset{t};
    assert TotalCount(r) == |more| by {
      TotalCountUpdate(groups, i, TagCount(t, groups[i].count + 1));
    }
    assert TagsOf(r) == TagsOf(groups);
    forall u
      ensures u in more <==> u in TagsOf(r)
    {
      assert u in more <==> u in tags || u == t;
    }
    forall j | 0 <= j < |r|
      ensures r[j].count == multiset(more)[r[j].tag]
    {
      if j != i {
        assert groups[j].tag != t;
      }
    }
  }

  /** A new tag: a group with count 1 is appended. */
  lemma BumpNew(groups: seq<TagCount>, tags: seq<string>, t: string)
    requires Histogram(groups, tags) && t !in TagsOf(groups)
    ensures Histogram(Bump(groups, t), tags + [t])
  {
    var more := tags + [t];
    var r := groups + [TagCount(t, 1)];
    assert Bump(groups, t) == r;
    assert multiset(more) == multiset(tags) + multiset{t};
    assert TotalCount(r) == |more| by {
      TotalCountAppend(groups, [TagCount(t, 1)]);
      assert [TagCount(t, 1)][..0] == [];
    }
    assert t !in tags;
    assert TagsOf(r) == TagsOf(groups) + [t];
    forall u
      ensures u in more <==> u in TagsOf(r)
    {
      assert u in more <==> u in tags || u == t;
    }
    forall i | 0 <= i < |groups|
      ensures groups[i].tag != t
    {
      assert TagsOf(groups)[i] == groups[i].tag;
    }
  }

  /** Grouping builds the histogram of the unwound tags. */
  lemma {:induction false} GroupIsHistogram(tags: seq<string>)
    ensures Histogram(Group(tags), tags)
    decreases |tags|
  {
    if tags != [] {
      var front := tags[..|tags| - 1];
      GroupIsHistogram(front);
      BumpKeepsHistogram(Group(front), front, tags[|tags| - 1]);
      assert front + [tags[|tags| - 1]] == tags;
    }
  }

  /** Reordering groups does not change their total. */
  lemma {:induction false} TotalCountPermutation(a: seq<TagCount>, b: seq<TagCount>)
    requires multiset(a) == multiset(b)
    ensures TotalCount(a) == TotalCount(b)
    decreases |a|
  {
    if a == [] {
      assert |multiset(b)| == 0;
    } else {
      var last := |a| - 1;
      var k := MatchingIndex(a, b);
      var others := b[..k] + b[k + 1..];
      RemoveMatching(a, b, k);
      TotalCountPermutation(a[..last], others);
      assert TotalCount(a) == TotalCount(a[..last]) + a[last].count;
      TotalCountRemove(b, k);
    }
  }

  /** Where the last element of `a` sits in its permutation `b`. */
  lemma MatchingIndex(a: seq<TagCount>, b: seq<TagCount>) returns (k: nat)
    requires a != [] && multiset(a) == multiset(b)
    ensures k < |b| && b[k] == a[|a| - 1]
  {
    var x := a[|a| - 1];
    assert x in multiset(b) by {
      assert x in a;
    }
    k :| 0 <= k < |b| && b[k] == x;
  }

  /** Taking the last element out of `a` and the same element out of its
      permutation `b` leaves permutations. */
  lemma RemoveMatching(a: seq<TagCount>, b: seq<TagCount>, k: nat)
    requires a != [] && multiset(a) == multiset(b)
    requires k < |b| && b[k] == a[|a| - 1]
    ensures multiset(a[..|a| - 1]) == multiset(b[..k] + b[k + 1..])
  {
    var last := |a| - 1;
    MultisetRemove(a, last);
    MultisetRemove(b, k);
    assert a[..last] + a[last + 1..] == a[..last];
  }

  /** Taking one element out of a sequence takes it out of its multiset. */
  lemma MultisetRemove<T>(b: seq<T>, k: nat)
    requires k < |b|
    ensures multiset(b[..k] + b[k + 1..]) == multiset(b) - multiset{b[k]}
  {
    var upto := b[..k + 1];
    assert b == upto + b[k + 1..];
    assert upto == b[..k] + [b[k]];
  }

  /** Removing one group from anywhere subtracts exactly its count. */
  lemma TotalCountRemove(b: seq<TagCount>, k: nat)
    requires k < |b|
    ensures TotalCount(b) == TotalCount(b[..k] + b[k + 1..]) + b[k].count
  {
    var before := b[..k];
    var after := b[k + 1..];
    var upto := b[..k + 1];
    assert b == upto + after;
    TotalCountAppend(upto, after);
    assert TotalCount(upto) == TotalCount(before) + b[k].count by {
      assert upto[..k] == before;
    }
    TotalCountAppend(before, after);
  }

  /** With distinct tags no group occurs twice. */
  lemma {:induction false} DistinctGroupsOccurOnce(groups: seq<TagCount>, g: TagCount)
    requires DistinctTags(groups)
    ensures multiset(groups)[g] <= 1
    decreases |groups|
  {
    if groups != [] {
      assert groups == [groups[0]] + groups[1..];
      DistinctGroupsOccurOnce(groups[1..], g);
      if groups[0] == g {
        assert g !in groups[1..];
      }
    }
  }

  lemma RepeatedElementCountsTwice(s: seq<TagCount>, i: nat, j: nat)
    requires i < j < |s| && s[i] == s[j]
    ensures multiset(s)[s[i]] >= 2
  {
    assert s == s[..j] + s[j..];
    assert s[i] in s[..j];
    assert s[j] in s[j..];
  }

  /** Reordering a histogram keeps it a histogram. */
  lemma PermutedHistogram(g: seq<TagCount>, r: seq<TagCount>, tags: seq<string>)
    requires Histogram(g, tags)
    requires multiset(r) == multiset(g)
    ensures Histogram(r, tags)
  {
    TotalCountPermutation(r, g);
    forall i | 0 <= i < |r|
      ensures r[i] in g
    {
      assert r[i] in multiset(r);
    }
    PermutedTags(g, r);
    forall i, j | 0 <= i < j < |r|
      ensures r[i].tag != r[j].tag
    {
      if r[i].tag == r[j].tag {
        assert r[i] == r[j];
        RepeatedElementCountsTwice(r, i, j);
        DistinctGroupsOccurOnce(g, r[i]);
        assert false;
      }
    }
  }

  lemma PermutedTags(g: seq<TagCount>, r: seq<TagCount>)
    requires multiset(r) == multiset(g)
    ensures forall t :: t in TagsOf(g) <==> t in TagsOf(r)
  {
    forall t
      ensures t in TagsOf(g) <==> t in TagsOf(r)
    {
      if t in TagsOf(g) {
        var j :| 0 <= j < |g| && TagsOf(g)[j] == t;
        assert g[j] in multiset(r);
        var i :| 0 <= i < |r| && r[i] == g[j];
        assert TagsOf(r)[i] == t;
      }
      if t in TagsOf(r) {
        var i :| 0 <= i < |r| && TagsOf(r)[i] == t;
        assert r[i] in multiset(g);
        var j :| 0 <= j < |g| && g[j] == r[i];
        assert TagsOf(g)[j] == t;
      }
    }
  }

  /** What `getTagsList` returns: the histogram of all stores' tags (each
      distinct tag once, with its number of occurrences, duplicates within
      one store included; counts summing to the number of tags), most
      frequent first. */
  lemma TagsListSpec(stores: seq<Store>)
    ensures Histogram(TagsList(stores), Unwind(stores))
    ensures Sorting.SortedDesc(TagsList(stores), ByCount)
  {
    GroupIsHistogram(Unwind(stores));
    PermutedHistogram(Group(Unwind(stores)), TagsList(stores), Unwind(stores));
  }

  lemma GroupExample()
    ensures Group(["a", "b", "a"]) == [TagCount("a", 2), TagCount("b", 1)]
  {
    var flat := ["a", "b", "a"];
    assert flat[..2] == ["a", "b"];
    assert flat[..2][..1] == ["a"];
    assert ["a"][..0] == [];
    assert Group(["a"]) == [TagCount("a", 1)];
    assert TagsOf([TagCount("a", 1)]) == ["a"];
    assert Group(["a", "b"]) == [TagCount("a", 1), TagCount("b", 1)];
    assert TagsOf([TagCount("a", 1), TagCount("b", 1)]) == ["a", "b"];
  }

  lemma SortExample()
    ensures Sorting.SortDesc([TagCount("a", 2), TagCount("b", 1)], ByCount)
            == [TagCount("a", 2), TagCount("b", 1)]
  {
    assert [TagCount("a", 2), TagCount("b", 1)][1..] == [TagCount("b", 1)];
    assert Sorting.SortDesc([TagCount("b", 1)], ByCount) == [TagCount("b", 1)];
  }

  /** Tags ["a", "b"] and ["a"] give a:2 then b:1. */
  lemma TagsListExample(first: Store, second: Store)
    requires first.tags == Some(["a", "b"]) && second.tags == Some(["a"])
    ensures TagsList([first, second]) == [TagCount("a", 2), TagCount("b", 1)]
  {
    assert [first, second][1..] == [second];
    assert Unwind([second]) == ["a"];
    assert Unwind([first, second]) == ["a", "b", "a"];
    GroupExample();
    SortExample();
  }
}

=== FILE: auth_controller.dfy ===
/** The rules of controllers/authController.js: the login gate, the
    password-reset token lifecycle (issue on `forgot`, check on `reset`,
    consume on `updatePassword`) and the password confirmation check.
    Token generation, mail, passport sessions and password hashing are
    foreign; the token and the current time are parameters. */
module AuthController {
  import opened Wrappers
  import StoreModel

  type Id = StoreModel.Id

  /** The user fields the handlers read and write. `password` stands for the
      stored credential that `setPassword` derives from the new password. */
  datatype User = User(
    id: Id,
    email: string,
    password: string,
    resetToken: Option<string>,
    resetExpires: Option<int>)

  datatype Response = Next | Redirect(url: string) | Render(view: string)

  /** `isLogin`. */
  function IsLogin(authenticated: bool): (r: Response)
    ensures r == Next <==> authenticated
    ensures !authenticated ==> r == Redirect("/login")
  {
    if authenticated then Next else Redirect("/login")
  }

  /** Lifetime of a reset token, in milliseconds (one hour). */
  const ResetWindow: int := 3600000

  /** The first user with the given email (`findOne({email})`). */
  function FindByEmail(users: seq<User>, email: string): (r: Option<nat>)
    ensures r.Some? ==> r.value < |users| && users[r.value].email == email
                        && forall j :: 0 <= j < r.value ==> users[j].email != email
    ensures r.None? ==> forall j :: 0 <= j < |users| ==> users[j].email != email
  {
    if users == [] then None
    else if users[0].email == email then Some(0)
    else match FindByEmail(users[1..], email)
      case None => None
      case Some(k) => Some(k + 1)
  }

  datatype ForgotOutcome = ForgotOutcome(users: seq<User>, response: Response)

  /** `forgot`: a known email gets a fresh token valid for one hour from
      `now`; an unknown one changes nothing. Both end on the login page. */
  function Forgot(users: seq<User>, email: string, token: string, now: int): (r: ForgotOutcome)
    ensures r.response == Redirect("/login")
    ensures (forall j :: 0 <= j < |users| ==> users[j].email != email) ==> r.users == users
    ensures |r.users| == |users|
  {
    match FindByEmail(users, email)
    case None => ForgotOutcome(users, Redirect("/login"))
    case Some(k) =>
      var issued := users[k].(resetToken := Some(token), resetExpires := Some(now + ResetWindow));
      ForgotOutcome(users[k := issued], Redirect("/login"))
  }

  /** The reset query `{resetPasswordToken: token, resetPasswordExpires: {$gt: now}}`
      for one user: the stored token is this one and its expiry is strictly
      later than now. */
  predicate Accepts(user: User, token: string, now: int) {
    user.resetToken == Some(token) && user.resetExpires.Some? && user.resetExpires.value > now
  }

  /** The first user the reset query matches. */
  function FindByToken(users: seq<User>, token: string, now: int): (r: Option<nat>)
    ensures r.Some? ==> r.value < |users| && Accepts(users[r.value], token, now)
                        && forall j :: 0 <= j < r.value ==> !Accepts(users[j], token, now)
    ensures r.None? ==> forall j :: 0 <= j < |users| ==> !Accepts(users[j], token, now)
  {
    if users == [] then None
    else if Accepts(users[0], token, now) then Some(0)
    else match FindByToken(users[1..], token, now)
      case None => None
      case Some(k) => Some(k + 1)
  }

  /** A known email receives the token, which expires one hour after `now`;
      every other user is untouched. */
  lemma ForgotIssuesToken(users: seq<User>, email: string, token: string, now: int, k: nat)
    requires FindByEmail(users, email) == Some(k)
    ensures Forgot(users, email, token, now).users[k].resetToken == Some(token)
    ensures Forgot(users, email, token, now).users[k].resetExpires == Some(now + ResetWindow)
    ensures Forgot(users, email, token, now).users[k].password == users[k].password
    ensures Forgot(users, email, token, now).users[k]
            == users[k].(resetToken := Some(token), resetExpires := Some(now + ResetWindow))
    ensures forall j :: 0 <= j < |users| && j != k ==> Forgot(users, email, token, now).users[j] == users[j]
  {
  }

  /** A token issued at `issued` is accepted at `now` exactly while
      `now < issued + 3600000`. */
  lemma IssuedTokenWindow(users: seq<User>, email: string, token: string, issued: int, now: int, k: nat)
    requires FindByEmail(users, email) == Some(k)
    ensures Accepts(Forgot(users, email, token, issued).users[k], token, now) <==> now < issued + ResetWindow
  {
  }

  /** Asking again replaces the token: the earlier one stops working. */
  lemma ReissueRevokesEarlierToken(users: seq<User>, email: string, first: string, second: string,
                                   t1: int, t2: int, now: int, k: nat)
    requires FindByEmail(users, email) == Some(k)
    requires first != second
    ensures var once := Forgot(users, email, first, t1).users;
            !Accepts(Forgot(once, email, second, t2).users[k], first, now)
  {
    var once := Forgot(users, email, first, t1).users;
    assert forall j :: 0 <= j < |users| ==> once[j].email == users[j].email;
    assert FindByEmail(once, email) == Some(k) by {
      assert forall j :: 0 <= j < k ==> once[j].email != email;
    }
  }

  /** `reset` with the invalid-token branch ending the handler: a matched
      token shows the form, anything else goes back to the login page. */
  function Reset(users: seq<User>, token: string, now: int): (r: Response)
    ensures r == Render("reset") <==> exists j :: 0 <= j < |users| && Accepts(users[j], token, now)
    ensures r != Render("reset") ==> r == Redirect("/login")
  {
    if FindByToken(users, token, now).Some? then Render("reset") else Redirect("/login")
  }

  /** One run of a handler as written: the responses it sends, whether it
      then throws, and the users it leaves. A response ends the exchange; a
      later attempt to send another throws (`ERR_HTTP_HEADERS_SENT`). */
  datatype Run = Run(responses: seq<Response>, crashed: bool, users: seq<User>)

  /** `reset` as written: the invalid-token branch redirects and falls
      through to `render`, whose attempt to send a second response throws.
      The form is never delivered on that path. */
  function ResetAsWritten(users: seq<User>, token: string, now: int): (run: Run)
    ensures run.users == users
    ensures run.crashed <==> forall j :: 0 <= j < |users| ==> !Accepts(users[j], token, now)
    ensures |run.responses| == 1
  {
    match FindByToken(users, token, now)
    case None => Run([Redirect("/login")], true, users)
    case Some(_) => Run([Render("reset")], false, users)
  }

  /** An unknown or expired token makes the handler as written send the
      redirect and then throw; the corrected handler sends the redirect and
      stops. */
  lemma ResetThrowsAfterRedirect(users: seq<User>, token: string, now: int)
    requires forall j :: 0 <= j < |users| ==> !Accepts(users[j], token, now)
    ensures ResetAsWritten(users, token, now) == Run([Redirect("/login")], true, users)
    ensures Reset(users, token, now) == Redirect("/login")
  {
  }

  /** On a valid token both versions show the form and nothing more. */
  lemma ResetAgreesOnValidToken(users: seq<User>, token: string, now: int)
    requires exists j :: 0 <= j < |users| && Accepts(users[j], token, now)
    ensures ResetAsWritten(users, token, now) == Run([Reset(users, token, now)], false, users)
    ensures Reset(users, token, now) == Render("reset")
  {
  }

  /** `confirmedPasswords`: strict equality of the two posted fields; two
      missing fields are equal too (`undefined === undefined`). */
  function ConfirmedPasswords(password: Option<string>, confirmed: Option<string>): (r: Response)
    ensures r == Next <==> password == confirmed
    ensures r != Next ==> r == Redirect("back")
  {
    if password == confirmed then Next else Redirect("back")
  }

  datatype PasswordOutcome =
    | PasswordRejected
    | PasswordUpdated(users: seq<User>, user: User, response: Response)

  /** `updatePassword` with the invalid-token branch ending the handler: the
      matched user gets the new password and loses token and expiry. */
  function UpdatePassword(users: seq<User>, token: string, password: string, now: int): (r: PasswordOutcome)
    ensures r.PasswordRejected? <==> forall j :: 0 <= j < |users| ==> !Accepts(users[j], token, now)
    ensures r.PasswordUpdated? ==> |r.users| == |users| && r.response == Redirect("/")
    ensures r.PasswordUpdated? ==> r.user.password == password
                                   && r.user.resetToken.None? && r.user.resetExpires.None?
  {
    match FindByToken(users, token, now)
    case None => PasswordRejected
    case Some(k) =>
      var user := users[k].(password := password, resetToken := None, resetExpires := None);
      PasswordUpdated(users[k := user], user, Redirect("/"))
  }

  /** A consumed token is spent: the user who used it accepts no token at any
      time, nobody else changed, and if no one else held it the token is now
      rejected everywhere. */
  lemma UpdatePasswordConsumesToken(users: seq<User>, token: string, password: string, now: int, later: int)
    requires UpdatePassword(users, token, password, now).PasswordUpdated?
    ensures var r := UpdatePassword(users, token, password, now);
            var k := FindByToken(users, token, now).value;
            && r.users[k] == r.user
            && r.user == users[k].(password := password, resetToken := None, resetExpires := None)
            && (forall t, when :: !Accepts(r.users[k], t, when))
            && (forall j :: 0 <= j < |users| && j != k ==> r.users[j] == users[j])
    ensures (forall j :: 0 <= j < |users| && j != FindByToken(users, token, now).value ==>
               users[j].resetToken != Some(token))
            ==> UpdatePassword(UpdatePassword(users, token, password, now).users, token, password, later).PasswordRejected?
  {
  }

  /** `updatePassword` as written: after the invalid-token redirect it goes
      on to read `user.setPassword` from `null` and throws. */
  function UpdatePasswordAsWritten(users: seq<User>, token: string, password: string, now: int): (run: Run)
    ensures run.crashed <==> forall j :: 0 <= j < |users| ==> !Accepts(users[j], token, now)
    ensures run.crashed ==> run.responses == [Redirect("/login")] && run.users == users
    ensures !run.crashed ==> run.responses == [Redirect("/")] && |run.users| == |users|
  {
    match FindByToken(users, token, now)
    case None => Run([Redirect("/login")], true, users)
    case Some(k) =>
      var user := users[k].(password := password, resetToken := None, resetExpires := None);
      Run([Redirect("/")], false, users[k := user])
  }

  /** An invalid token makes the handler as written throw after redirecting;
      the corrected handler rejects it outright. Neither changes a user. */
  lemma UpdatePasswordInvalidToken(users: seq<User>, token: string, password: string, now: int)
    requires forall j :: 0 <= j < |users| ==> !Accepts(users[j], token, now)
    ensures UpdatePasswordAsWritten(users, token, password, now).crashed
    ensures UpdatePasswordAsWritten(users, token, password, now).users == users
    ensures UpdatePassword(users, token, password, now) == PasswordRejected
  {
  }

  /** On a valid token both versions do the same thing. */
  lemma UpdatePasswordAgreesOnValidToken(users: seq<User>, token: string, password: string, now: int)
    requires exists j :: 0 <= j < |users| && Accepts(users[j], token, now)
    ensures var run := UpdatePasswordAsWritten(users, token, password, now);
            var r := UpdatePassword(users, token, password, now);
            && !run.crashed && r.PasswordUpdated?
            && run.users == r.users && run.responses == [r.response]
  {
  }
}

=== FILE: slugs.dfy ===
/** The slug rule of the store schema's pre-save hook: a URL-safe base
    derived from the store name, then a numeric suffix taken from the NUMBER
    of stored slugs in the base's family.

    The `slugs` library is foreign code; `Slugify` stands in for it with the
    part of its behaviour the rule depends on: lower-case ASCII letters and
    digits, single hyphens between words, no hyphen at either end. */
module Slugs {
  import opened Text

  predicate IsSlugChar(c: char) {
    IsLowerAlpha(c) || IsDigit(c) || c == '-'
  }

  predicate NoDoubleHyphen(s: string) {
    forall i :: 0 <= i < |s| - 1 ==> !(s[i] == '-' && s[i + 1] == '-')
  }

  /** Text the slug library can produce. */
  predicate IsSlugText(s: string) {
    && (forall i :: 0 <= i < |s| ==> IsSlugChar(s[i]))
    && (s != [] ==> s[0] != '-' && s[|s| - 1] != '-')
    && NoDoubleHyphen(s)
  }

  predicate HasAlnum(s: string) {
    exists i :: 0 <= i < |s| && IsAsciiAlnum(s[i])
  }

  /** Scans `s`: letters and digits are kept (lower-cased), any other run of
      characters becomes one hyphen, emitted only between two kept
      characters. `pending` says a separator run was seen since the last kept
      character, `started` that some character was kept already. */
  function SlugRun(s: string, pending: bool, started: bool): string
  {
    if s == [] then []
    else if IsAsciiAlnum(s[0]) then
      var rest := SlugRun(s[1..], false, true);
      (if pending && started then "-" else "") + [LowerChar(s[0])] + rest
    else
      SlugRun(s[1..], true, started)
  }

  /** What the scanner emits is slug characters with hyphens only between
      kept characters: none at the end, none doubled, and one at the front
      only when something was kept before this stretch of the name. */
  lemma {:induction false} SlugRunShape(s: string, pending: bool, started: bool)
    ensures var r := SlugRun(s, pending, started);
            && (forall i :: 0 <= i < |r| ==> IsSlugChar(r[i]))
            && (r != [] ==> r[|r| - 1] != '-')
            && (r != [] && r[0] == '-' ==> started && |r| >= 2 && r[1] != '-')
            && NoDoubleHyphen(r)
    decreases |s|
  {
    if s != [] {
      if IsAsciiAlnum(s[0]) {
        SlugRunShape(s[1..], false, true);
      } else {
        SlugRunShape(s[1..], true, started);
      }
    }
  }

  /** The scanner keeps something exactly when the text holds a letter or digit. */
  lemma {:induction false} SlugRunEmptyIff(s: string, pending: bool, started: bool)
    ensures SlugRun(s, pending, started) == [] <==> !HasAlnum(s)
    decreases |s|
  {
    if s != [] && !IsAsciiAlnum(s[0]) {
      SlugRunEmptyIff(s[1..], true, started);
      if HasAlnum(s) {
        var i :| 0 <= i < |s| && IsAsciiAlnum(s[i]);
        assert s[1..][i - 1] == s[i];
      }
      if HasAlnum(s[1..]) {
        var i :| 0 <= i < |s[1..]| && IsAsciiAlnum(s[1..][i]);
        assert s[i + 1] == s[1..][i];
      }
    }
  }

  /** The base slug of a store name (`slug(this.name)`). */
  function Slugify(name: string): (r: string)
    ensures IsSlugText(r)
    ensures r == [] <==> !HasAlnum(name)
  {
    SlugRunEmptyIff(name, false, false);
    SlugRunShape(name, false, false);
    SlugRun(name, false, false)
  }

  /** A suffix of slug text that starts at a kept character is slug text. */
  lemma SlugTextSuffix(t: string, k: nat)
    requires IsSlugText(t)
    requires k < |t| && t[k] != '-'
    ensures IsSlugText(t[k..])
  {
    var u := t[k..];
    forall i | 0 <= i < |u| - 1
      ensures !(u[i] == '-' && u[i + 1] == '-')
    {
      assert u[i] == t[k + i] && u[i + 1] == t[k + i + 1];
    }
  }

  /** One step of the scanner over a letter or digit. */
  lemma AlnumStep(s: string, pending: bool, started: bool)
    requires s != [] && IsAsciiAlnum(s[0])
    ensures SlugRun(s, pending, started)
            == (if pending && started then "-" else "") + [LowerChar(s[0])] + SlugRun(s[1..], false, true)
  {
  }

  /** One step of the scanner over a separator character. */
  lemma SeparatorStep(s: string, pending: bool, started: bool)
    requires s != [] && !IsAsciiAlnum(s[0])
    ensures SlugRun(s, pending, started) == SlugRun(s[1..], true, started)
  {
  }

  predicate AllAlnum(w: string) {
    forall i :: 0 <= i < |w| ==> IsAsciiAlnum(w[i])
  }

  /** A run of letters and digits passes through the scanner lower-cased. */
  lemma {:induction false} SlugRunWord(w: string, rest: string, started: bool)
    requires w != [] && AllAlnum(w)
    ensures SlugRun(w + rest, false, started) == Lower(w) + SlugRun(rest, false, true)
    decreases |w|
  {
    var tail := SlugRun(rest, false, true);
    assert SlugRun(w + rest, false, started) == [LowerChar(w[0])] + SlugRun(w[1..] + rest, false, true) by {
      AlnumStep(w + rest, false, started);
      assert (w + rest)[0] == w[0] && (w + rest)[1..] == w[1..] + rest;
    }
    LowerCons(w);
    if |w| == 1 {
      assert w[1..] + rest == rest && Lower(w[1..]) == [];
    } else {
      SlugRunWord(w[1..], rest, true);
      assert [LowerChar(w[0])] + (Lower(w[1..]) + tail) == ([LowerChar(w[0])] + Lower(w[1..])) + tail;
    }
  }

  /** After a separator, a kept character is preceded by exactly one hyphen. */
  lemma HyphenBeforeWord(s: string)
    requires s != [] && IsAsciiAlnum(s[0])
    ensures SlugRun(s, true, true) == "-" + SlugRun(s, false, true)
  {
    AlnumStep(s, true, true);
    AlnumStep(s, false, true);
  }

  /** A single word's slug is the word in lower case. */
  lemma SlugOfWord(a: string)
    requires a != [] && AllAlnum(a)
    ensures Slugify(a) == Lower(a)
  {
    SlugRunWord(a, [], false);
    assert a + [] == a;
  }

  /** Two words separated by a space slug to the lower-cased words joined by
      one hyphen. */
  lemma SlugOfTwoWords(a: string, b: string)
    requires a != [] && AllAlnum(a)
    requires b != [] && AllAlnum(b)
    ensures Slugify(a + " " + b) == Lower(a) + "-" + Lower(b)
  {
    assert a + " " + b == a + (" " + b);
    SlugRunWord(a, " " + b, false);
    SeparatorStep(" " + b, false, true);
    assert (" " + b)[1..] == b + [] == b;
    HyphenBeforeWord(b);
    SlugRunWord(b, [], true);
  }

  /** One step of the scanner over a kept character. */
  lemma SlugRunKeptStep(t: string, started: bool)
    requires t != [] && (IsLowerAlpha(t[0]) || IsDigit(t[0]))
    ensures SlugRun(t, false, started) == [t[0]] + SlugRun(t[1..], false, true)
  {
  }

  /** One step of the scanner over a single hyphen between kept characters. */
  lemma SlugRunHyphenStep(t: string)
    requires |t| >= 2 && t[0] == '-' && (IsLowerAlpha(t[1]) || IsDigit(t[1]))
    ensures SlugRun(t, false, true) == "-" + [t[1]] + SlugRun(t[2..], false, true)
  {
    assert SlugRun(t, false, true) == SlugRun(t[1..], true, true);
    assert t[1..][1..] == t[2..];
  }

  /** Slug text passes through the scanner unchanged. */
  lemma {:induction false} SlugRunKeepsSlugText(t: string, started: bool)
    requires IsSlugText(t)
    ensures SlugRun(t, false, started) == t
    decreases |t|
  {
    if t != [] {
      SlugRunKeptStep(t, started);
      if |t| == 1 {
      } else if t[1] == '-' {
        assert t[2] != '-';
        SlugRunHyphenStep(t[1..]);
        assert t[1..][2..] == t[3..];
        SlugTextSuffix(t, 2);
        SlugRunKeptStep(t[2..], true);
        assert t[2..][1..] == t[3..];
        SlugRunKeepsSlugText(t[2..], true);
        assert t[2..] == [t[2]] + t[3..];
        assert t == [t[0]] + "-" + [t[2]] + t[3..];
      } else {
        SlugTextSuffix(t, 1);
        SlugRunKeepsSlugText(t[1..], true);
        assert [t[0]] + t[1..] == t;
      }
    }
  }

  /** Slugifying a slug changes nothing. */
  lemma SlugifyIdempotent(name: string)
    ensures Slugify(Slugify(name)) == Slugify(name)
  {
    SlugRunKeepsSlugText(Slugify(name), false);
  }

  /** The hook's pattern `^(base)((-[0-9]*$)?)$` with the `i` flag, for a
      base made of slug text (which holds no pattern metacharacter, so the
      interpolated base matches itself literally). The query is evaluated by
      the database server's PCRE engine, not by JavaScript. This predicate
      keeps the ASCII part of its semantics: `$` as the end of the candidate
      and `i` as ASCII case folding. PCRE's `$` also matches before a final
      line feed, and its caseless UTF-8 matching also folds a few non-ASCII
      letters onto ASCII ones; neither is part of this predicate. */
  predicate InFamily(base: string, candidate: string) {
    var t := Lower(candidate);
    || t == base
    || (&& |t| > |base|
        && t[..|base|] == base
        && t[|base|] == '-'
        && AllDigits(t[|base| + 1..]))
  }

  /** The family of `base` described by construction: the base itself, or
      the base, a hyphen and a (possibly empty) run of decimal digits, in
      any letter case. */
  lemma InFamilyIff(base: string, candidate: string)
    ensures InFamily(base, candidate) <==>
      (|| Lower(candidate) == base
       || exists digits :: AllDigits(digits) && Lower(candidate) == base + "-" + digits)
  {
    var t := Lower(candidate);
    if exists digits :: AllDigits(digits) && t == base + "-" + digits {
      var digits :| AllDigits(digits) && t == base + "-" + digits;
      assert t[..|base|] == base;
      assert t[|base| + 1..] == digits;
    }
    if t != base && InFamily(base, candidate) {
      var digits := t[|base| + 1..];
      assert t == base + "-" + digits;
    }
  }

  lemma FamilyAcceptsEmptySuffix(base: string)
    requires IsSlugText(base)
    ensures InFamily(base, base + "-")
  {
    var t := Lower(base + "-");
    assert t == base + "-";
    assert t[|base| + 1..] == [];
  }

  lemma FamilyAcceptsDigits(base: string, digits: string)
    requires IsSlugText(base)
    requires AllDigits(digits)
    ensures InFamily(base, base + "-" + digits)
  {
    var t := Lower(base + "-" + digits);
    assert t == base + "-" + digits;
    InFamilyIff(base, base + "-" + digits);
  }

  /** A hyphen followed by anything but digits leaves the family. */
  lemma FamilyRejectsNonDigit(base: string, c: char, rest: string)
    requires !IsDigit(c)
    ensures !InFamily(base, base + "-" + [c] + rest)
  {
    var candidate := base + "-" + [c] + rest;
    var t := Lower(candidate);
    assert t[|base| + 1] == LowerChar(candidate[|base| + 1]);
    assert candidate[|base| + 1] == c;
    assert |t| > |base| + 1;
  }

  /** A longer word that merely starts with the base is not in its family. */
  lemma FamilyRejectsLongerWord(base: string, c: char, rest: string)
    requires IsSlugText(base)
    requires IsAsciiAlnum(c)
    ensures !InFamily(base, base + [c] + rest)
  {
    var candidate := base + [c] + rest;
    var t := Lower(candidate);
    assert t[|base|] == LowerChar(c);
  }

  /** The stored slugs the hook's query returns, in storage order. */
  function Matching(base: string, slugs: seq<string>): seq<string>
  {
    if slugs == [] then []
    else (if InFamily(base, slugs[0]) then [slugs[0]] else []) + Matching(base, slugs[1..])
  }

  /** The query returns every family member as often as it is stored, and
      nothing else. */
  lemma {:induction false} MatchingIsFamily(base: string, slugs: seq<string>)
    ensures forall s :: multiset(Matching(base, slugs))[s]
                        == if InFamily(base, s) then multiset(slugs)[s] else 0
  {
    if slugs != [] {
      MatchingIsFamily(base, slugs[1..]);
      assert slugs == [slugs[0]] + slugs[1..];
    }
  }

  function CountMatches(base: string, slugs: seq<string>): (n: nat)
    ensures n <= |slugs|
    ensures n == 0 <==> forall s :: s in slugs ==> !InFamily(base, s)
  {
    var m := Matching(base, slugs);
    MatchingIsFamily(base, slugs);
    assert forall s :: s in slugs && InFamily(base, s) ==> s in multiset(m);
    assert multiset(m) <= multiset(slugs);
    assert |multiset(m)| <= |multiset(slugs)| by {
      var extra := multiset(slugs) - multiset(m);
      assert multiset(slugs) == multiset(m) + extra;
    }
    |m|
  }

  /** The slug the hook assigns given the base and every stored slug: the base
      when its family is empty, otherwise `base-(N+1)` for N family members. */
  function AssignSlug(base: string, slugs: seq<string>): (r: string)
    requires IsSlugText(base)
    ensures InFamily(base, r)
    ensures |r| >= |base|
  {
    var n := CountMatches(base, slugs);
    if n == 0 then
      assert Lower(base) == base;
      base
    else
      FamilyAcceptsDigits(base, NatToString(n + 1));
      base + "-" + NatToString(n + 1)
  }

  /** An empty family leaves the base as it is. */
  lemma NoMatchKeepsBase(base: string, slugs: seq<string>)
    requires IsSlugText(base)
    requires forall s :: s in slugs ==> !InFamily(base, s)
    ensures AssignSlug(base, slugs) == base
  {
  }

  /** With N >= 1 family members the suffix is N + 1, whatever suffixes the
      members carry. */
  lemma SuffixIsCountPlusOne(base: string, slugs: seq<string>, n: nat)
    requires IsSlugText(base)
    requires n == |Matching(base, slugs)| && n >= 1
    ensures AssignSlug(base, slugs) == base + "-" + NatToString(n + 1)
    ensures DigitsValue(NatToString(n + 1)) == n + 1
  {
    NatToStringRoundTrip(n + 1);
  }

  /** A base that is already stored (in any letter case) is never reused. */
  lemma TakenBaseIsNotReused(base: string, slugs: seq<string>, taken: string)
    requires IsSlugText(base)
    requires taken in slugs && Lower(taken) == base
    ensures AssignSlug(base, slugs) != base
  {
    assert InFamily(base, taken);
  }

  /** Slug text is already lower case. */
  lemma LowerKeepsSlugText(s: string)
    requires IsSlugText(s)
    ensures Lower(s) == s
  {
  }

  /** When every stored slug belongs to the family, the query returns them all. */
  lemma {:induction false} MatchingKeepsFamily(base: string, slugs: seq<string>)
    requires forall s :: s in slugs ==> InFamily(base, s)
    ensures Matching(base, slugs) == slugs
  {
    if slugs != [] {
      assert forall s :: s in slugs[1..] ==> s in slugs;
      MatchingKeepsFamily(base, slugs[1..]);
      assert [slugs[0]] + slugs[1..] == slugs;
    }
  }

  /** The rule counts, it does not take the maximum: with `b`, `b-2` and
      `b-7` stored, the next `b` becomes `b-4`, not `b-8`. */
  lemma CountNotMaximum(b: string)
    requires IsSlugText(b)
    ensures AssignSlug(b, [b, b + "-" + "2", b + "-" + "7"]) == b + "-" + "4"
  {
    LowerKeepsSlugText(b);
    FamilyAcceptsDigits(b, "2");
    FamilyAcceptsDigits(b, "7");
    MatchingKeepsFamily(b, [b, b + "-" + "2", b + "-" + "7"]);
    SuffixIsCountPlusOne(b, [b, b + "-" + "2", b + "-" + "7"], 3);
    assert NatToString(4) == "4";
  }

  /** The assigned slug can already be taken: with `b-2` and `b-3` stored
      (names such as "Shop 2" and "Shop 3" produce them), a store whose base
      is `b` counts two family members and receives `b-3` again. */
  lemma SlugCanCollide(b: string)
    requires IsSlugText(b)
    ensures AssignSlug(b, [b + "-" + "2", b + "-" + "3"]) == b + "-" + "3"
  {
    FamilyAcceptsDigits(b, "2");
    FamilyAcceptsDigits(b, "3");
    MatchingKeepsFamily(b, [b + "-" + "2", b + "-" + "3"]);
    SuffixIsCountPlusOne(b, [b + "-" + "2", b + "-" + "3"], 2);
    assert NatToString(3) == "3";
  }

  /** A single stored `b-2` makes the next `b` take `b-2` as well. */
  lemma SecondTakesSameSuffix(b: string)
    requires IsSlugText(b)
    ensures AssignSlug(b, [b + "-" + "2"]) == b + "-" + "2"
  {
    FamilyAcceptsDigits(b, "2");
    MatchingKeepsFamily(b, [b + "-" + "2"]);
    SuffixIsCountPlusOne(b, [b + "-" + "2"], 1);
    assert NatToString(2) == "2";
  }
}

=== FILE: sorting.dfy ===
/** Descending sort and truncation over sequences, standing in for the
    storage engine's `$sort` / `.sort({field: -1})` followed by `$limit`.

    The engine's sort is not stable, so callers state only what every
    correct sort guarantees: the output is a permutation of the input and
    its keys never increase. The insertion sort below is one such sort. */
module Sorting {

  /** Keys never increase from left to right. */
  predicate SortedDesc<T>(s: seq<T>, key: T -> real) {
    forall i, j :: 0 <= i < j < |s| ==> key(s[i]) >= key(s[j])
  }

  /** `s` with `x` placed before the first element it does not outrank. */
  function Insert<T>(x: T, s: seq<T>, key: T -> real): (r: seq<T>)
    requires SortedDesc(s, key)
    ensures SortedDesc(r, key)
    ensures multiset(r) == multiset(s) + multiset{x}
    ensures |r| == |s| + 1
    ensures r[0] == x || (s != [] && r[0] == s[0])
  {
    if s == [] || key(x) >= key(s[0]) then
      ConsSorted(x, s, key);
      [x] + s
    else
      var tail := Insert(x, s[1..], key);
      assert key(s[0]) >= key(tail[0]) by {
        if tail[0] != x {
          assert tail[0] == s[1];
        }
      }
      ConsSorted(s[0], tail, key);
      assert multiset([s[0]] + tail) == multiset(s) + multiset{x} by {
        assert s == [s[0]] + s[1..];
      }
      [s[0]] + tail
  }

  /** Prepending an element that outranks the head keeps a sequence sorted. */
  lemma ConsSorted<T>(h: T, t: seq<T>, key: T -> real)
    requires SortedDesc(t, key)
    requires t == [] || key(h) >= key(t[0])
    ensures SortedDesc([h] + t, key)
  {
    forall i, j | 0 <= i < j < |t| + 1
      ensures key(([h] + t)[i]) >= key(([h] + t)[j])
    {
      if i == 0 {
        assert key(t[0]) >= key(t[j - 1]) || j == 1;
      }
    }
  }

  /** In a sorted sequence nothing after position `k` outranks anything
      before it. */
  lemma PrefixOutranksSuffix<T>(s: seq<T>, k: nat, y: T, x: T, key: T -> real)
    requires SortedDesc(s, key) && k <= |s|
    requires y in s[..k] && x in s[k..]
    ensures key(x) <= key(y)
  {
    var i :| 0 <= i < |s[k..]| && s[k..][i] == x;
    var j :| 0 <= j < k && s[..k][j] == y;
    assert s[j] == y && s[k + i] == x;
  }

  /** A descending permutation of `s`. */
  function SortDesc<T>(s: seq<T>, key: T -> real): (r: seq<T>)
    ensures SortedDesc(r, key)
    ensures multiset(r) == multiset(s)
    ensures |r| == |s|
  {
    if s == [] then []
    else
      assert s == [s[0]] + s[1..];
      Insert(s[0], SortDesc(s[1..], key), key)
  }

  /** The first `n` elements, or all of them when there are fewer (`$limit`). */
  function Take<T>(s: seq<T>, n: nat): (r: seq<T>)
    ensures |r| == if |s| < n then |s| else n
    ensures r == s[..|r|]
  {
    if |s| <= n then s else s[..n]
  }

  /** The elements after the first `n` (`.skip(n)`); empty when `n` runs past the end. */
  function Drop<T>(s: seq<T>, n: nat): (r: seq<T>)
    ensures |r| == if |s| < n then 0 else |s| - n
    ensures r == s[|s| - |r|..]
  {
    if |s| <= n then [] else s[n..]
  }

  /** `r` holds the `n` largest keys of `s`, in descending order, with ties
      between equal keys resolved in no particular way: it is drawn from `s`,
      has the right length, is sorted, and nothing left out outranks
      anything kept. */
  ghost predicate IsTopK<T>(s: seq<T>, n: nat, key: T -> real, r: seq<T>) {
    && |r| == (if |s| < n then |s| else n)
    && multiset(r) <= multiset(s)
    && SortedDesc(r, key)
    && forall x, y :: x in multiset(s) - multiset(r) && y in r ==> key(x) <= key(y)
  }

  /** Sorting then taking a prefix keeps the largest keys. */
  lemma SortTakeIsTopK<T>(s: seq<T>, n: nat, key: T -> real)
    ensures IsTopK(s, n, key, Take(SortDesc(s, key), n))
  {
    var sorted := SortDesc(s, key);
    PrefixIsTopK(sorted, n, key);
  }

  /** A prefix of a sorted sequence is a top-k of it. */
  lemma PrefixIsTopK<T>(sorted: seq<T>, n: nat, key: T -> real)
    requires SortedDesc(sorted, key)
    ensures IsTopK(sorted, n, key, Take(sorted, n))
  {
    var r := Take(sorted, n);
    var rest := sorted[|r|..];
    assert multiset(r) <= multiset(sorted) by {
      assert sorted == r + rest;
    }
    SliceSorted(sorted, 0, |r|, key);
    assert sorted[0..|r|] == r;
    PrefixOutranksLeftovers(sorted, |r|, key);
  }

  /** A contiguous run of a sorted sequence is sorted. */
  lemma SliceSorted<T>(s: seq<T>, lo: nat, hi: nat, key: T -> real)
    requires SortedDesc(s, key) && lo <= hi <= |s|
    ensures SortedDesc(s[lo..hi], key)
  {
    forall i, j | 0 <= i < j < hi - lo
      ensures key(s[lo..hi][i]) >= key(s[lo..hi][j])
    {
      assert s[lo..hi][i] == s[lo + i] && s[lo..hi][j] == s[lo + j];
    }
  }

  /** Nothing a sorted prefix leaves out outranks anything it keeps. */
  lemma PrefixOutranksLeftovers<T>(sorted: seq<T>, k: nat, key: T -> real)
    requires SortedDesc(sorted, key) && k <= |sorted|
    ensures forall x, y :: x in multiset(sorted) - multiset(sorted[..k]) && y in sorted[..k] ==> key(x) <= key(y)
  {
    var r := sorted[..k];
    var rest := sorted[k..];
    assert multiset(sorted) - multiset(r) == multiset(rest) by {
      assert sorted == r + rest;
    }
    forall x, y | x in multiset(sorted) - multiset(r) && y in r
      ensures key(x) <= key(y)
    {
      assert x in rest;
      PrefixOutranksSuffix(sorted, k, y, x, key);
    }
  }

  /** A window `skip`/`limit` of a sorted sequence is a sorted run of it. */
  lemma WindowOfSorted<T>(s: seq<T>, skip: nat, limit: nat, key: T -> real)
    requires SortedDesc(s, key)
    ensures var w := Take(Drop(s, skip), limit);
            && |w| <= limit
            && (w != [] ==> skip < |s| && w == s[skip..skip + |w|])
            && SortedDesc(w, key)
            && multiset(w) <= multiset(s)
  {
    var rest := Drop(s, skip);
    var w := Take(rest, limit);
    if skip < |s| {
      assert rest == s[skip..];
      assert w == s[skip..skip + |w|];
      assert s == s[..skip] + w + s[skip + |w|..];
      assert multiset(s) == multiset(s[..skip]) + multiset(w) + multiset(s[skip + |w|..]);
      forall i, j | 0 <= i < j < |w|
        ensures key(w[i]) >= key(w[j])
      {
        assert w[i] == s[skip + i] && w[j] == s[skip + j];
      }
    }
  }
}

=== FILE: store_controller.dfy ===
/** The request handlers of controllers/storeController.js that carry a
    rule: creating a store, the paginated listing, the owner check, the heart
    toggle, the edit path (location normalisation, update validators and the
    missing owner check), the upload filter and
    photo naming, and the tag page. Rendering, flashes and image processing
    are not modelled; a handler's outcome is a value. */
module StoreController {
  import opened Wrappers
  import opened Text
  import opened StoreModel
  import Slugs
  import Sorting
  import Aggregations

  /* ---------- createStore ---------- */

  datatype CreateOutcome =
    | Created(stores: seq<Store>, store: Store, redirect: string)
    | Invalid(errors: seq<FieldError>)

  /** `createStore`: the author is the logged-in user, the document is saved
      (validation, then the slug hook; a new document's name counts as
      modified whenever it is given) and the browser is sent to its page. */
  function CreateStore(stores: seq<Store>, body: StoreInput, user: Id, id: Id, now: int): (r: CreateOutcome)
    ensures r.Created? ==> r.stores == stores + [r.store] && r.store.author == Some(user)
    ensures r.Created? ==> r.store == NewDocument(body, id, Some(user), now).(slug := r.store.slug)
    ensures r.Created? ==> r.store.slug.Some? && r.redirect == "/store/" + r.store.slug.value
    ensures r.Created? ==> r.store.tags.Some?
    ensures r.Created? ==> r.store.created == if body.created.Some? then body.created.value else now
    ensures r.Created? ==>
              && body.name.Some?
              && r.store.slug
                 == Some(Slugs.AssignSlug(Slugs.Slugify(Trim(body.name.value)), StoredSlugs(stores)))
    ensures r.Invalid? <==> !Valid(NewDocument(body, id, Some(user), now))
  {
    var doc := NewDocument(body, id, Some(user), now);
    match Save(doc, doc.name.Some?, stores)
    case Err(errs) => Invalid(errs)
    case Ok(saved) => Created(stores + [saved], saved, "/store/" + saved.slug.value)
  }

  lemma SlugOfShop()
    ensures Slugs.Slugify("Shop") == "shop"
  {
    Slugs.SlugOfWord("Shop");
  }

  lemma SlugOfShop2()
    ensures Slugs.Slugify("Shop 2") == "shop-2"
  {
    assert Lower("Shop") == "shop" by {
      SlugOfShop();
      Slugs.SlugOfWord("Shop");
    }
    assert Slugs.AllAlnum("2") && Lower("2") == "2";
    Slugs.SlugOfTwoWords("Shop", "2");
    assert "Shop" + " " + "2" == "Shop 2";
    assert "shop" + "-" + "2" == "shop-2";
  }

  lemma TrimKeepsWord(s: string)
    requires s == "Shop" || s == "Shop 2"
    ensures Trim(s) == s
  {
    assert s[0] == 'S';
    assert s[|s| - 1] == 'p' || s[|s| - 1] == '2';
    TrimUnpadded(s);
  }

  /** The slug the save path gives a valid new document named `name`. */
  lemma CreatedSlug(stores: seq<Store>, body: StoreInput, user: Id, id: Id, now: int, name: string)
    requires body.name == Some(name)
    requires Valid(NewDocument(body, id, Some(user), now))
    ensures CreateStore(stores, body, user, id, now).Created?
    ensures CreateStore(stores, body, user, id, now).store.slug
            == Some(Slugs.AssignSlug(Slugs.Slugify(Trim(name)), StoredSlugs(stores)))
  {
  }

  lemma FormIsValid(body: StoreInput, id: Id, user: Id, now: int)
    requires body.name.Some? && Trim(body.name.value) != ""
    requires body.location == Some(LocationInput(None, [], Some("Main street")))
    ensures Valid(NewDocument(body, id, Some(user), now))
  {
  }

  lemma SecondShopCounted()
    ensures Slugs.AssignSlug("shop", ["shop-2"]) == "shop-2"
  {
    SlugOfShop();
    assert Slugs.IsSlugText("shop");
    Slugs.SecondTakesSameSuffix("shop");
    assert "shop" + "-" + "2" == "shop-2";
  }

  /** Slugs are not unique: creating "Shop 2" and then "Shop" in an empty
      collection gives both stores the slug `shop-2`. */
  lemma CreatedSlugsCanCollide(user: Id, now: int, body1: StoreInput, body2: StoreInput)
    requires body1.name == Some("Shop 2") && body2.name == Some("Shop")
    requires body1.location == body2.location == Some(LocationInput(None, [], Some("Main street")))
    ensures var first := CreateStore([], body1, user, "1", now);
            && first.Created?
            && var second := CreateStore(first.stores, body2, user, "2", now);
            && second.Created?
            && first.store.slug == second.store.slug == Some("shop-2")
  {
    var first := CreateStore([], body1, user, "1", now);
    FirstShopSlug(user, now, body1);
    assert first.stores == [first.store];
    StoredSlugsOfOne(first.store);
    SecondShopSlug(first.stores, user, now, body2);
  }

  /** "Shop 2" in an empty collection keeps its base slug. */
  lemma FirstShopSlug(user: Id, now: int, body: StoreInput)
    requires body.name == Some("Shop 2")
    requires body.location == Some(LocationInput(None, [], Some("Main street")))
    ensures CreateStore([], body, user, "1", now).Created?
    ensures CreateStore([], body, user, "1", now).store.slug == Some("shop-2")
  {
    TrimKeepsWord("Shop 2");
    FormIsValid(body, "1", user, now);
    CreatedSlug([], body, user, "1", now, "Shop 2");
    SlugOfShop2();
    assert StoredSlugs([]) == [];
    Slugs.NoMatchKeepsBase("shop-2", []);
  }

  /** "Shop" next to a stored `shop-2` counts it and takes `shop-2` too. */
  lemma SecondShopSlug(stores: seq<Store>, user: Id, now: int, body: StoreInput)
    requires StoredSlugs(stores) == ["shop-2"]
    requires body.name == Some("Shop")
    requires body.location == Some(LocationInput(None, [], Some("Main street")))
    ensures CreateStore(stores, body, user, "2", now).Created?
    ensures CreateStore(stores, body, user, "2", now).store.slug == Some("shop-2")
  {
    TrimKeepsWord("Shop");
    FormIsValid(body, "2", user, now);
    CreatedSlug(stores, body, user, "2", now, "Shop");
    SlugOfShop();
    SecondShopCounted();
  }

  /* ---------- getStores ---------- */

  /** Stores per listing page. */
  const PageLimit: nat := 4

  /** The listing's outcome: a rendered page, a redirect to another page, or
      a failed query (the storage engine refuses a negative skip). */
  datatype Listing =
    | Render(stores: seq<Store>, page: int, pages: nat, count: nat)
    | RedirectToPage(target: int)
    | QueryFailed

  /** `req.params.page || 1`: any given page parameter is a non-empty string,
      hence truthy, even "0"; only a missing one becomes 1. */
  function PageNumber(param: Option<int>): (page: int)
    ensures param.Some? ==> page == param.value
    ensures param.None? ==> page == 1
  {
    param.GetOr(1)
  }

  function Skip(page: int): (skip: int)
    ensures skip == (page - 1) * PageLimit
    ensures skip >= 0 <==> page >= 1
  {
    page * PageLimit - PageLimit
  }

  /** `Math.ceil(count / limit)`. */
  function Pages(count: nat): (pages: nat)
    ensures pages * PageLimit >= count
    ensures pages > 0 ==> (pages - 1) * PageLimit < count
  {
    (count + PageLimit - 1) / PageLimit
  }

  function ByCreated(s: Store): real {
    s.created as real
  }

  /** `find().skip(skip).limit(4).sort({created: "desc"})`: the engine sorts
      before it skips and limits. */
  function PageOf(stores: seq<Store>, skip: nat): (page: seq<Store>)
    ensures |page| <= PageLimit
    ensures page == [] <==> |stores| <= skip
  {
    Sorting.Take(Sorting.Drop(Sorting.SortDesc(stores, ByCreated), skip), PageLimit)
  }

  /** `getStores` as written: an empty page past the first redirects to page
      `pages`. */
  function GetStoresAsWritten(stores: seq<Store>, param: Option<int>): (r: Listing)
    ensures r.QueryFailed? <==> Skip(PageNumber(param)) < 0
    ensures r.RedirectToPage? ==> r.target == Pages(|stores|) && PageNumber(param) > 1
    ensures r.Render? ==> r.count == |stores| && r.page == PageNumber(param)
  {
    var page := PageNumber(param);
    var skip := Skip(page);
    if skip < 0 then QueryFailed
    else
      var shown := PageOf(stores, skip);
      var pages := Pages(|stores|);
      if shown == [] && skip != 0 then RedirectToPage(pages)
      else Render(shown, page, pages, |stores|)
  }

  /** `getStores` with the redirect aimed at the last page that exists:
      page 1 when the collection is empty. */
  function GetStores(stores: seq<Store>, param: Option<int>): (r: Listing)
    ensures r.QueryFailed? <==> Skip(PageNumber(param)) < 0
    ensures r.RedirectToPage? ==> 1 <= r.target && (r.target - 1) * PageLimit <= |stores|
    ensures r.Render? ==> r.count == |stores| && r.page == PageNumber(param)
  {
    var page := PageNumber(param);
    var skip := Skip(page);
    if skip < 0 then QueryFailed
    else
      var shown := PageOf(stores, skip);
      var pages := Pages(|stores|);
      if shown == [] && skip != 0 then RedirectToPage(if pages == 0 then 1 else pages)
      else Render(shown, page, pages, |stores|)
  }

  /** A page is a run of at most four stores of the newest-first order. */
  lemma PageIsWindow(stores: seq<Store>, skip: nat)
    ensures |PageOf(stores, skip)| <= PageLimit
    ensures Sorting.SortedDesc(PageOf(stores, skip), ByCreated)
    ensures multiset(PageOf(stores, skip)) <= multiset(stores)
    ensures PageOf(stores, skip) != [] ==>
              PageOf(stores, skip) == Sorting.SortDesc(stores, ByCreated)[skip..skip + |PageOf(stores, skip)|]
  {
    Sorting.WindowOfSorted(Sorting.SortDesc(stores, ByCreated), skip, PageLimit, ByCreated);
  }

  /** A rendered page shows at most four stores of the collection, newest
      first: the run at offset `page * 4 - 4` of the newest-first order. */
  lemma ListingPage(stores: seq<Store>, param: Option<int>)
    requires GetStores(stores, param).Render?
    ensures Skip(PageNumber(param)) >= 0
    ensures GetStores(stores, param).stores == PageOf(stores, Skip(PageNumber(param)))
    ensures |GetStores(stores, param).stores| <= PageLimit
    ensures Sorting.SortedDesc(GetStores(stores, param).stores, ByCreated)
    ensures multiset(GetStores(stores, param).stores) <= multiset(stores)
  {
    PageIsWindow(stores, Skip(PageNumber(param)));
  }

  /** A rendered page reports the collection size and `ceil(count / 4)` pages. */
  lemma ListingCounts(stores: seq<Store>, param: Option<int>)
    requires GetStores(stores, param).Render?
    ensures GetStores(stores, param).count == |stores|
    ensures GetStores(stores, param).pages * PageLimit >= |stores|
    ensures GetStores(stores, param).pages > 0 ==> (GetStores(stores, param).pages - 1) * PageLimit < |stores|
  {
  }

  /** The listing as written and the corrected one differ only in the
      redirect target: they fail, redirect and render on the same requests,
      and a rendered page is the same. So `ListingPage` and `ListingCounts`
      hold for the listing as written too. */
  lemma ListingsAgreeExceptRedirect(stores: seq<Store>, param: Option<int>)
    ensures GetStoresAsWritten(stores, param).QueryFailed? <==> GetStores(stores, param).QueryFailed?
    ensures GetStoresAsWritten(stores, param).RedirectToPage? <==> GetStores(stores, param).RedirectToPage?
    ensures GetStoresAsWritten(stores, param).Render? <==> GetStores(stores, param).Render?
    ensures GetStoresAsWritten(stores, param).Render? ==>
              GetStoresAsWritten(stores, param) == GetStores(stores, param)
  {
  }

  /** The listing redirects exactly when the requested page is empty and is
      not the first; an empty first page is rendered. */
  lemma RedirectIffEmptyLaterPage(stores: seq<Store>, param: Option<int>)
    requires Skip(PageNumber(param)) >= 0
    ensures GetStoresAsWritten(stores, param).RedirectToPage? <==>
            Skip(PageNumber(param)) != 0 && |stores| <= Skip(PageNumber(param))
    ensures GetStores(stores, param).RedirectToPage? <==>
            Skip(PageNumber(param)) != 0 && |stores| <= Skip(PageNumber(param))
    ensures GetStoresAsWritten(stores, param).RedirectToPage? ==>
            GetStoresAsWritten(stores, param).target == Pages(|stores|)
  {
  }

  /** The listing as written sends a reader of page 2 of an empty collection
      to page 0, and page 0 asks the engine for skip -4. */
  lemma RedirectToPageZero()
    ensures GetStoresAsWritten([], Some(2)) == RedirectToPage(0)
    ensures Skip(0) == -4
    ensures GetStoresAsWritten([], Some(0)) == QueryFailed
  {
  }

  /** Following the corrected listing's redirect always lands on a page that
      renders. */
  lemma RedirectLandsOnPage(stores: seq<Store>, param: Option<int>)
    requires GetStores(stores, param).RedirectToPage?
    ensures GetStores(stores, Some(GetStores(stores, param).target)).Render?
  {
    var target := GetStores(stores, param).target;
    var pages := Pages(|stores|);
    if pages == 0 {
      assert Skip(target) == 0;
    } else {
      var skip := Skip(target);
      assert skip == (pages - 1) * PageLimit;
      assert skip < |stores|;
      var sorted := Sorting.SortDesc(stores, ByCreated);
      assert |Sorting.Drop(sorted, skip)| > 0;
    }
  }

  /* ---------- editStore / confirmOwner ---------- */

  const NotOwnerMessage := "You must own a store in order to edit it"

  /** `confirmOwner`: throws unless the store's author is the user. */
  function ConfirmOwner(store: Store, user: Id): (r: Result<Store, string>)
    ensures r.Ok? <==> store.author == Some(user)
    ensures r.Ok? ==> r.value == store
    ensures r.Err? ==> r.error == NotOwnerMessage
  {
    if store.author == Some(user) then Ok(store) else Err(NotOwnerMessage)
  }

  datatype EditOutcome = EditForm(store: Store) | NotOwner(message: string) | NoSuchStore

  /** The first store with the given id (`findOne({_id: id})`). */
  function FindById(stores: seq<Store>, id: Id): (r: Option<nat>)
    ensures r.Some? ==> r.value < |stores| && stores[r.value].id == id
                        && forall k :: 0 <= k < r.value ==> stores[k].id != id
    ensures r.None? ==> forall k :: 0 <= k < |stores| ==> stores[k].id != id
  {
    if stores == [] then None
    else if stores[0].id == id then Some(0)
    else match FindById(stores[1..], id)
      case None => None
      case Some(k) => Some(k + 1)
  }

  /** `editStore`: the edit form is shown only to the store's author. A
      missing store makes `confirmOwner` dereference `null`; that failure is
      `NoSuchStore`. */
  function EditStore(stores: seq<Store>, id: Id, user: Id): (r: EditOutcome)
    ensures r.EditForm? <==> exists k :: 0 <= k < |stores| && stores[k].id == id
                                         && FindById(stores, id) == Some(k)
                                         && stores[k].author == Some(user)
    ensures r.EditForm? ==> r.store.id == id && r.store.author == Some(user)
  {
    match FindById(stores, id)
    case None => NoSuchStore
    case Some(k) =>
      match ConfirmOwner(stores[k], user)
      case Ok(s) => EditForm(s)
      case Err(msg) => NotOwner(msg)
  }

  /* ---------- heartStore ---------- */

  /** Removes every occurrence of `id` (`$pull`). */
  function Pull(hearts: seq<Id>, id: Id): (r: seq<Id>)
    ensures forall h :: h in r <==> h in hearts && h != id
    ensures forall h :: h != id ==> multiset(r)[h] == multiset(hearts)[h]
  {
    if hearts == [] then []
    else
      assert hearts == [hearts[0]] + hearts[1..];
      (if hearts[0] == id then [] else [hearts[0]]) + Pull(hearts[1..], id)
  }

  /** `heartStore`: a store already hearted is un-hearted (every copy of its
      id is pulled), any other is added once (`$addToSet`). */
  function HeartStore(hearts: seq<Id>, id: Id): (r: seq<Id>)
    ensures id in hearts ==> id !in r
    ensures id !in hearts ==> multiset(r)[id] == 1
    ensures forall h :: h != id ==> multiset(r)[h] == multiset(hearts)[h]
  {
    if id in hearts then Pull(hearts, id) else hearts + [id]
  }

  /** Toggling twice restores membership, and leaves a list that did not
      hold the id exactly as it was. */
  lemma HeartTwice(hearts: seq<Id>, id: Id)
    ensures id in HeartStore(HeartStore(hearts, id), id) <==> id in hearts
    ensures forall h :: h in HeartStore(HeartStore(hearts, id), id) <==> h in hearts
    ensures id !in hearts ==> HeartStore(HeartStore(hearts, id), id) == hearts
  {
    var once := HeartStore(hearts, id);
    if id in hearts {
      assert id !in once;
      assert multiset(HeartStore(once, id))[id] == 1;
    } else {
      PullAppended(hearts, id);
    }
    forall h
      ensures h in HeartStore(once, id) <==> h in hearts
    {
      if h != id {
        assert multiset(HeartStore(once, id))[h] == multiset(hearts)[h];
      }
    }
  }

  /** Pulling an id that was only appended gives the original list back. */
  lemma {:induction false} PullAppended(hearts: seq<Id>, id: Id)
    requires id !in hearts
    ensures Pull(hearts + [id], id) == hearts
  {
    if hearts == [] {
      assert Pull([id], id) == [] + Pull([], id);
    } else {
      assert (hearts + [id])[1..] == hearts[1..] + [id];
      PullAppended(hearts[1..], id);
      assert hearts == [hearts[0]] + hearts[1..];
    }
  }

  /* ---------- updateStore ---------- */

  datatype UpdateOutcome =
    | Updated(stores: seq<Store>, store: Store)
    | MissingLocation
    | UpdateRejected(errors: seq<FieldError>)
    | UpdateNotFound
    | UpdateNotOwner

  /** A path under `$set`: a posted value replaces the stored one, and a
      path the body leaves out keeps the stored value. */
  predicate Overrides<T(==)>(posted: Option<T>, before: Option<T>, after: Option<T>) {
    && (posted.Some? ==> after == posted)
    && (posted.None? ==> after == before)
  }

  /** The value a `$set` leaves on one path. */
  function Pick<T(==)>(posted: Option<T>, before: Option<T>): (after: Option<T>)
    ensures Overrides(posted, before, after)
  {
    if posted.Some? then posted else before
  }

  /** The update document: every posted path, location included, is set on
      the stored document; paths the body leaves out keep their value. No
      setter and no save middleware runs. */
  function ApplyUpdate(store: Store, body: StoreInput, location: LocationInput): (r: Store)
    ensures r.id == store.id
    ensures r.location == Location(location.kind.GetOr(PointKind), location.coordinates, location.address)
    ensures Overrides(body.name, store.name, r.name)
    ensures Overrides(body.slug, store.slug, r.slug)
    ensures Overrides(body.description, store.description, r.description)
    ensures Overrides(body.tags, store.tags, r.tags)
    ensures Overrides(body.photo, store.photo, r.photo)
    ensures Overrides(body.author, store.author, r.author)
    ensures r.created == if body.created.Some? then body.created.value else store.created
  {
    Store(
      store.id,
      Pick(body.name, store.name),
      Pick(body.slug, store.slug),
      Pick(body.description, store.description),
      Pick(body.tags, store.tags),
      body.created.GetOr(store.created),
      Location(location.kind.GetOr(PointKind), location.coordinates, location.address),
      Pick(body.photo, store.photo),
      Pick(body.author, store.author))
  }

  /** The update validators (`runValidators: true`): the schema's `required`
      constraints, checked on the paths the update sets. A posted empty
      name, a missing coordinate and a missing or empty address fail; a name
      or author the body leaves out is not checked. */
  function UpdateErrors(body: StoreInput, location: LocationInput): seq<FieldError> {
    (if body.name.Some? && body.name.value == "" then [NameRequired] else [])
    + CoordinateErrors(location.coordinates, 0)
    + (if Filled(location.address) then [] else [AddressRequired])
  }

  /** `updateStore`: `location.type` is forced to "Point" on the posted body,
      then `findOneAndUpdate` validates and writes it. That call runs no save
      middleware, so the slug is never recomputed. A body without `location`
      fails before anything is written, a refused update writes nothing, and
      an unknown id writes nothing. Nothing checks who sends the request. */
  function UpdateStore(stores: seq<Store>, id: Id, body: StoreInput): (r: UpdateOutcome)
    ensures body.location.None? <==> r.MissingLocation?
    ensures r.UpdateRejected? <==>
              body.location.Some? && UpdateErrors(body, body.location.value) != []
    ensures r.UpdateRejected? ==> r.errors == UpdateErrors(body, body.location.value)
    ensures !r.UpdateNotOwner?
    ensures r.Updated? ==> r.store.location.kind == PointKind
    ensures r.Updated? ==> r.store.id == id && |r.stores| == |stores|
  {
    match body.location
    case None => MissingLocation
    case Some(l) =>
      var normalised := l.(kind := Some(PointKind));
      var errs := UpdateErrors(body, normalised);
      if errs != [] then UpdateRejected(errs)
      else match FindById(stores, id)
        case None => UpdateNotFound
        case Some(k) =>
          var updated := ApplyUpdate(stores[k], body, normalised);
          Updated(stores[k := updated], updated)
  }

  /** Whatever `location.type` was posted, the stored type is "Point". */
  lemma UpdateForcesPoint(stores: seq<Store>, id: Id, body: StoreInput, kind: string)
    requires body.location.Some? && body.location.value.kind == Some(kind)
    requires UpdateErrors(body, body.location.value) == []
    requires exists k :: 0 <= k < |stores| && stores[k].id == id
    ensures UpdateStore(stores, id, body).Updated?
    ensures UpdateStore(stores, id, body).store.location.kind == PointKind
  {
  }

  /** On a store that satisfies the schema, the update validators accept the
      body exactly when the updated document satisfies the schema too, and
      the updated document is what is stored. */
  lemma UpdateAcceptedIffValid(stores: seq<Store>, id: Id, body: StoreInput, k: nat)
    requires body.location.Some?
    requires FindById(stores, id) == Some(k) && Valid(stores[k])
    ensures var updated := ApplyUpdate(stores[k], body, body.location.value.(kind := Some(PointKind)));
            && (UpdateStore(stores, id, body).Updated? <==> Valid(updated))
            && (UpdateStore(stores, id, body).Updated? ==> UpdateStore(stores, id, body).store == updated)
  {
    var l := body.location.value.(kind := Some(PointKind));
    var updated := ApplyUpdate(stores[k], body, l);
    CoordinateErrorsEmptyIff(l.coordinates);
    var errs := UpdateErrors(body, l);
    if errs != [] {
      assert errs[0] in errs;
      assert !Valid(updated);
    }
  }

  /** The edit path never derives the slug from the name: the stored slug
      stays unless the body itself carries one, which is then written as
      posted. Every other store is left alone. */
  lemma UpdateNeverReslugs(stores: seq<Store>, id: Id, body: StoreInput)
    requires UpdateStore(stores, id, body).Updated?
    ensures var r := UpdateStore(stores, id, body);
            var k := FindById(stores, id).value;
            && r.store.slug == (if body.slug.Some? then body.slug else stores[k].slug)
            && r.stores[k] == r.store
            && forall j :: 0 <= j < |stores| && j != k ==> r.stores[j] == stores[j]
  {
  }

  /** `updateStore` preceded by the owner check `editStore` makes: the store
      is looked up first, and a user who is not its author changes nothing. */
  function UpdateOwnStore(stores: seq<Store>, id: Id, user: Id, body: StoreInput): (r: UpdateOutcome)
    ensures r.UpdateNotOwner? <==>
              FindById(stores, id).Some? && stores[FindById(stores, id).value].author != Some(user)
    ensures r.Updated? ==> FindById(stores, id).Some? && stores[FindById(stores, id).value].author == Some(user)
    ensures !r.UpdateNotOwner? && !r.UpdateNotFound? ==> r == UpdateStore(stores, id, body)
  {
    match FindById(stores, id)
    case None => UpdateNotFound
    case Some(k) =>
      if ConfirmOwner(stores[k], user).Err? then UpdateNotOwner else UpdateStore(stores, id, body)
  }

  /** The route as written updates a store for anyone who posts a valid
      body; with the owner check, a user who is not the author is refused. */
  lemma NonOwnerCanUpdate(stores: seq<Store>, id: Id, user: Id, body: StoreInput, k: nat)
    requires body.location.Some? && UpdateErrors(body, body.location.value) == []
    requires FindById(stores, id) == Some(k) && stores[k].author != Some(user)
    ensures UpdateStore(stores, id, body).Updated?
    ensures UpdateOwnStore(stores, id, user, body) == UpdateNotOwner
  {
  }

  /* ---------- upload / resize ---------- */

  const FiletypeMessage := "That filetype is not allowed!"

  /** `multerOptions.fileFilter`. */
  function FileFilter(mimetype: string): (r: Result<bool, string>)
    ensures r.Ok? <==> StartsWith(mimetype, "image/")
    ensures r.Ok? ==> r.value
    ensures r.Err? ==> r.error == FiletypeMessage
  {
    if StartsWith(mimetype, "image/") then Ok(true) else Err(FiletypeMessage)
  }

  /** `mimetype.split("/")[1]` interpolated into a template literal: the
      text between the first and the second "/", or "undefined" when there
      is no "/". */
  function Extension(mimetype: string): (ext: string)
    ensures forall i :: 0 <= i < |ext| ==> ext[i] != '/'
  {
    var parts := Split(mimetype, '/');
    if |parts| > 1 then parts[1] else "undefined"
  }

  /** `${uuid}.${extension}`. */
  function PhotoName(uuid: string, mimetype: string): (name: string)
    ensures |name| > |uuid| && name[..|uuid|] == uuid && name[|uuid|] == '.'
    ensures name[|uuid| + 1..] == Extension(mimetype)
  {
    uuid + "." + Extension(mimetype)
  }

  /** `resize`: without a file the body is left alone; with one, the body's
      photo becomes the generated name. */
  function Resize(body: StoreInput, file: Option<string>, uuid: string): (r: StoreInput)
    ensures file.None? ==> r == body
    ensures file.Some? ==> r == body.(photo := Some(PhotoName(uuid, file.value)))
  {
    match file
    case None => body
    case Some(mimetype) => body.(photo := Some(PhotoName(uuid, mimetype)))
  }

  /** An accepted image named `image/<subtype>` is stored as `<uuid>.<subtype>`. */
  lemma AcceptedPhotoName(uuid: string, subtype: string)
    requires forall i :: 0 <= i < |subtype| ==> subtype[i] != '/'
    ensures FileFilter("image/" + subtype).Ok?
    ensures PhotoName(uuid, "image/" + subtype) == uuid + "." + subtype
  {
    var m := "image/" + subtype;
    assert m == "image" + ['/'] + subtype;
    SplitFirstPart("image", '/', subtype);
    SplitNoSeparator(subtype, '/');
    assert m[..|"image/"|] == "image/";
  }

  /** Any accepted file has a real extension: the segment after the first
      "/", up to the next one. */
  lemma AcceptedFileHasExtension(mimetype: string)
    requires FileFilter(mimetype).Ok?
    ensures var rest := mimetype[|"image/"|..];
            Extension(mimetype) == Split(rest, '/')[0]
  {
    var rest := mimetype[|"image/"|..];
    assert mimetype == "image" + ['/'] + rest;
    SplitFirstPart("image", '/', rest);
  }

  /** Without a "/" the name ends in ".undefined". */
  lemma SlashlessMimetype(uuid: string, mimetype: string)
    requires forall i :: 0 <= i < |mimetype| ==> mimetype[i] != '/'
    ensures PhotoName(uuid, mimetype) == uuid + ".undefined"
    ensures FileFilter(mimetype).Err?
  {
    SplitNoSeparator(mimetype, '/');
    if |mimetype| >= 6 {
      assert mimetype[..6][5] == mimetype[5] != '/';
    }
  }

  /* ---------- getStoreByTag ---------- */

  /** `tags: tag` when a tag is given (arrays containing it), otherwise
      `tags: {$exists: true}` (documents that have the field). An empty tag
      is falsy in `tag || ...`. */
  predicate TagQuery(tag: Option<string>, s: Store) {
    if tag.Some? && tag.value != "" then s.tags.Some? && tag.value in s.tags.value
    else s.tags.Some?
  }

  function StoresMatching(stores: seq<Store>, tag: Option<string>): (r: seq<Store>)
    ensures forall s :: multiset(r)[s] == if TagQuery(tag, s) then multiset(stores)[s] else 0
  {
    if stores == [] then []
    else
      assert stores == [stores[0]] + stores[1..];
      (if TagQuery(tag, stores[0]) then [stores[0]] else []) + StoresMatching(stores[1..], tag)
  }

  datatype TagPage = TagPage(tags: seq<Aggregations.TagCount>, tag: Option<string>, stores: seq<Store>)

  /** `getStoreByTag`: the tag histogram and the stores carrying the tag. */
  function GetStoreByTag(stores: seq<Store>, tag: Option<string>): (r: TagPage)
    ensures r.tags == Aggregations.TagsList(stores)
    ensures forall s :: s in r.stores <==> s in stores && TagQuery(tag, s)
    ensures forall s :: multiset(r.stores)[s] == if TagQuery(tag, s) then multiset(stores)[s] else 0
  {
    var shown := StoresMatching(stores, tag);
    assert forall s :: s in shown <==> s in multiset(shown);
    TagPage(Aggregations.TagsList(stores), tag, shown)
  }

  /** A store created through the form always has a tags array, so without a
      tag the page lists every store the application created. */
  lemma UntaggedQueryListsCreated(stores: seq<Store>, body: StoreInput, user: Id, id: Id, now: int)
    requires CreateStore(stores, body, user, id, now).Created?
    ensures TagQuery(None, CreateStore(stores, body, user, id, now).store)
  {
  }
}

=== FILE: store_model.dfy ===
/** The store document of the schema in models/Store.js: how a request body
    becomes a document (trim setters, defaults), the schema's required-field
    validation, and the pre-save hook that assigns the slug. */
module StoreModel {
  import opened Wrappers
  import opened Text
  import Slugs

  /** Object ids, compared by their string form. */
  type Id = string

  /** Default of `location.type`. */
  const PointKind := "Point"

  /** Form fields of a store as posted. */
  datatype LocationInput = LocationInput(kind: Option<string>, coordinates: seq<Option<real>>, address: Option<string>)

  /** A posted body. The form sends the first five fields; the handlers pass
      the body on whole, so `slug`, `created` and `author` are written too
      when a request carries them. */
  datatype StoreInput = StoreInput(
    name: Option<string>,
    description: Option<string>,
    tags: Option<seq<string>>,
    location: Option<LocationInput>,
    photo: Option<string>,
    slug: Option<string>,
    created: Option<int>,
    author: Option<Id>)

  /** A geo point; a coordinate is `None` when the posted value was empty. */
  datatype Location = Location(kind: string, coordinates: seq<Option<real>>, address: Option<string>)

  /** A store document. Fields the schema does not default stay optional. */
  datatype Store = Store(
    id: Id,
    name: Option<string>,
    slug: Option<string>,
    description: Option<string>,
    tags: Option<seq<string>>,
    created: int,
    location: Location,
    photo: Option<string>,
    author: Option<Id>)

  /** One violated `required` constraint of the schema. */
  datatype FieldError =
    | NameRequired
    | CoordinateRequired(index: nat)
    | AddressRequired
    | AuthorRequired

  function Message(e: FieldError): string {
    match e
    case NameRequired => "Please enter a store name"
    case CoordinateRequired(_) => "You must supply coordinates"
    case AddressRequired => "You must supply an address"
    case AuthorRequired => "You must supply an author"
  }

  function TrimOpt(s: Option<string>): Option<string> {
    match s
    case None => None
    case Some(v) => Some(Trim(v))
  }

  /** `new Store(body)`: the `trim` setters run on `name` and `description`,
      `created` defaults to now, `location.type` to "Point", and `tags`, an
      array path, to the empty array. Every other posted path is copied. The
      author is the one the caller sets on the body. */
  function NewDocument(input: StoreInput, id: Id, author: Option<Id>, now: int): (doc: Store)
    ensures doc.id == id && doc.author == author
    ensures doc.slug == input.slug && doc.photo == input.photo
    ensures doc.created == if input.created.Some? then input.created.value else now
    ensures doc.tags == if input.tags.Some? then input.tags else Some([])
    ensures doc.name.Some? <==> input.name.Some?
    ensures doc.name.Some? ==> doc.name.value == Trim(input.name.value)
    ensures doc.description.Some? <==> input.description.Some?
    ensures doc.description.Some? ==> doc.description.value == Trim(input.description.value)
    ensures input.location.None? ==> doc.location == Location(PointKind, [], None)
    ensures input.location.Some? ==>
              && doc.location.coordinates == input.location.value.coordinates
              && doc.location.address == input.location.value.address
              && (input.location.value.kind.Some? ==> doc.location.kind == input.location.value.kind.value)
              && (input.location.value.kind.None? ==> doc.location.kind == PointKind)
  {
    var location := match input.location
      case None => Location(PointKind, [], None)
      case Some(l) => Location(l.kind.GetOr(PointKind), l.coordinates, l.address);
    Store(id, TrimOpt(input.name), input.slug, TrimOpt(input.description),
          Some(input.tags.GetOr([])), input.created.GetOr(now), location, input.photo, author)
  }

  /** A string passes `required` when present and not empty. */
  predicate Filled(s: Option<string>) {
    s.Some? && s.value != ""
  }

  /** Every schema constraint holds. `required` sits on each coordinate
      element, not on the array, so the array may be empty. */
  predicate Valid(doc: Store) {
    && Filled(doc.name)
    && (forall i :: 0 <= i < |doc.location.coordinates| ==> doc.location.coordinates[i].Some?)
    && Filled(doc.location.address)
    && doc.author.Some?
  }

  /** One error per missing coordinate, numbered from `from`. */
  function CoordinateErrors(coordinates: seq<Option<real>>, from: nat): (errs: seq<FieldError>)
    ensures forall e :: e in errs ==>
              e.CoordinateRequired? && from <= e.index < from + |coordinates|
              && coordinates[e.index - from].None?
    ensures forall i :: 0 <= i < |coordinates| && coordinates[i].None? ==>
              CoordinateRequired(from + i) in errs
    decreases |coordinates|
  {
    if coordinates == [] then []
    else
      var rest := CoordinateErrors(coordinates[1..], from + 1);
      CoordinateErrorsStep(coordinates, from, rest);
      (if coordinates[0].None? then [CoordinateRequired(from)] else []) + rest
  }

  /** The first coordinate's error, if any, in front of the errors of the
      rest (numbered from `from + 1`) covers the whole array. */
  lemma CoordinateErrorsStep(coordinates: seq<Option<real>>, from: nat, rest: seq<FieldError>)
    requires coordinates != []
    requires forall e :: e in rest ==>
               e.CoordinateRequired? && from + 1 <= e.index < from + 1 + |coordinates[1..]|
               && coordinates[1..][e.index - (from + 1)].None?
    requires forall i :: 0 <= i < |coordinates[1..]| && coordinates[1..][i].None? ==>
               CoordinateRequired(from + 1 + i) in rest
    ensures var errs := (if coordinates[0].None? then [CoordinateRequired(from)] else []) + rest;
            && (forall e :: e in errs ==>
                  e.CoordinateRequired? && from <= e.index < from + |coordinates|
                  && coordinates[e.index - from].None?)
            && (forall i :: 0 <= i < |coordinates| && coordinates[i].None? ==>
                  CoordinateRequired(from + i) in errs)
  {
    var errs := (if coordinates[0].None? then [CoordinateRequired(from)] else []) + rest;
    forall e | e in errs
      ensures e.CoordinateRequired? && from <= e.index < from + |coordinates|
              && coordinates[e.index - from].None?
    {
      if e in rest {
        assert coordinates[1..][e.index - (from + 1)] == coordinates[e.index - from];
      }
    }
    forall i | 0 <= i < |coordinates| && coordinates[i].None?
      ensures CoordinateRequired(from + i) in errs
    {
      if i > 0 {
        assert coordinates[1..][i - 1] == coordinates[i];
        assert CoordinateRequired(from + 1 + (i - 1)) in rest;
      }
    }
  }

  /** The schema's validation: every violated constraint, in schema order. */
  function Validate(doc: Store): seq<FieldError> {
    (if Filled(doc.name) then [] else [NameRequired])
    + CoordinateErrors(doc.location.coordinates, 0)
    + (if Filled(doc.location.address) then [] else [AddressRequired])
    + (if doc.author.Some? then [] else [AuthorRequired])
  }

  /** Validation passes exactly when every constraint holds, and each
      constraint is reported exactly when it is violated. */
  lemma ValidateReportsViolations(doc: Store)
    ensures Validate(doc) == [] <==> Valid(doc)
    ensures NameRequired in Validate(doc) <==> !Filled(doc.name)
    ensures AddressRequired in Validate(doc) <==> !Filled(doc.location.address)
    ensures AuthorRequired in Validate(doc) <==> doc.author.None?
    ensures forall i :: 0 <= i < |doc.location.coordinates| ==>
              (CoordinateRequired(i) in Validate(doc) <==> doc.location.coordinates[i].None?)
  {
    var coords := doc.location.coordinates;
    ValidateMembers(doc);
    assert Validate(doc) == [] <==> Valid(doc) by {
      CoordinateErrorsEmptyIff(coords);
      if Validate(doc) != [] {
        assert Validate(doc)[0] in Validate(doc);
      }
    }
    forall i | 0 <= i < |coords|
      ensures CoordinateRequired(i) in Validate(doc) <==> coords[i].None?
    {
      CoordinateErrorsIndex(coords, i);
    }
  }

  /** What the error list holds: each field error exactly when its field is
      missing, and the coordinate errors. */
  lemma ValidateMembers(doc: Store)
    ensures forall e :: e in Validate(doc) <==>
              || (e == NameRequired && !Filled(doc.name))
              || e in CoordinateErrors(doc.location.coordinates, 0)
              || (e == AddressRequired && !Filled(doc.location.address))
              || (e == AuthorRequired && doc.author.None?)
  {
    var ce := CoordinateErrors(doc.location.coordinates, 0);
    var a := if Filled(doc.name) then [] else [NameRequired];
    var b := if Filled(doc.location.address) then [] else [AddressRequired];
    var c := if doc.author.Some? then [] else [AuthorRequired];
    assert Validate(doc) == a + ce + b + c;
  }

  lemma CoordinateErrorsEmptyIff(coords: seq<Option<real>>)
    ensures CoordinateErrors(coords, 0) == [] <==> forall i :: 0 <= i < |coords| ==> coords[i].Some?
  {
    var ce := CoordinateErrors(coords, 0);
    if !(forall i :: 0 <= i < |coords| ==> coords[i].Some?) {
      var i :| 0 <= i < |coords| && coords[i].None?;
      assert CoordinateRequired(0 + i) in ce;
    }
    if ce != [] {
      assert ce[0] in ce;
    }
  }

  lemma CoordinateErrorsIndex(coords: seq<Option<real>>, i: nat)
    requires i < |coords|
    ensures CoordinateRequired(i) in CoordinateErrors(coords, 0) <==> coords[i].None?
  {
    if coords[i].None? {
      assert CoordinateRequired(0 + i) in CoordinateErrors(coords, 0);
    }
  }

  /** A blank name (spaces only, in any of JavaScript's whitespace
      characters) is refused: the trim setter empties it first. */
  lemma BlankNameRejected(input: StoreInput, id: Id, author: Option<Id>, now: int)
    requires input.name.Some? && AllWhitespace(input.name.value)
    ensures NameRequired in Validate(NewDocument(input, id, author, now))
  {
    TrimEmptyIffBlank(input.name.value);
    ValidateReportsViolations(NewDocument(input, id, author, now));
  }

  /** The slugs stored in the collection (documents without one never match
      the hook's query). */
  function StoredSlugs(stores: seq<Store>): (slugs: seq<string>)
    ensures forall s :: s in slugs <==> exists k :: 0 <= k < |stores| && stores[k].slug == Some(s)
  {
    if stores == [] then []
    else
      var rest := StoredSlugs(stores[1..]);
      assert forall k :: 1 <= k < |stores| ==> stores[k] == stores[1..][k - 1];
      (if stores[0].slug.Some? then [stores[0].slug.value] else []) + rest
  }

  /** The positions of the stored documents whose slug is `s`. */
  ghost function SlugIndices(stores: seq<Store>, s: string): set<int> {
    set k | 0 <= k < |stores| && stores[k].slug == Some(s)
  }

  /** The list holds each slug once per document that carries it, so the
      hook's `length` counts documents, duplicates included. */
  lemma {:induction false} StoredSlugsCountsDocuments(stores: seq<Store>, s: string)
    ensures multiset(StoredSlugs(stores))[s] == |SlugIndices(stores, s)|
    decreases |stores|
  {
    if stores != [] {
      var n := |stores| - 1;
      StoredSlugsCountsDocuments(stores[..n], s);
      StoredSlugsSnoc(stores, s);
      SlugIndicesSnoc(stores, s);
    }
  }

  /** The last document adds its own slug, if any, to the list of the others. */
  lemma StoredSlugsSnoc(stores: seq<Store>, s: string)
    requires stores != []
    ensures var n := |stores| - 1;
            multiset(StoredSlugs(stores))[s]
            == multiset(StoredSlugs(stores[..n]))[s] + (if stores[n].slug == Some(s) then 1 else 0)
  {
    var n := |stores| - 1;
    var tail := if stores[n].slug.Some? then [stores[n].slug.value] else [];
    StoredSlugsLast(stores);
    assert multiset(StoredSlugs(stores)) == multiset(StoredSlugs(stores[..n])) + multiset(tail);
  }

  lemma StoredSlugsLast(stores: seq<Store>)
    requires stores != []
    ensures var n := |stores| - 1;
            StoredSlugs(stores)
            == StoredSlugs(stores[..n]) + (if stores[n].slug.Some? then [stores[n].slug.value] else [])
  {
    var n := |stores| - 1;
    var last := [stores[n]];
    assert stores == stores[..n] + last;
    StoredSlugsAppend(stores[..n], last);
    assert StoredSlugs(last) == (if stores[n].slug.Some? then [stores[n].slug.value] else []) by {
      assert last[1..] == [];
    }
  }

  lemma {:induction false} StoredSlugsAppend(a: seq<Store>, b: seq<Store>)
    ensures StoredSlugs(a + b) == StoredSlugs(a) + StoredSlugs(b)
    decreases |a|
  {
    if a == [] {
      assert a + b == b;
    } else {
      assert (a + b)[1..] == a[1..] + b;
      StoredSlugsAppend(a[1..], b);
    }
  }

  lemma SlugIndicesSnoc(stores: seq<Store>, s: string)
    requires stores != []
    ensures var n := |stores| - 1;
            |SlugIndices(stores, s)|
            == |SlugIndices(stores[..n], s)| + (if stores[n].slug == Some(s) then 1 else 0)
  {
    var n := |stores| - 1;
    var front := SlugIndices(stores[..n], s);
    assert n !in front;
    if stores[n].slug == Some(s) {
      assert SlugIndices(stores, s) == front + {n};
    } else {
      assert SlugIndices(stores, s) == front;
    }
  }


  /** A collection of one store holds that store's slug alone. */
  lemma StoredSlugsOfOne(store: Store)
    requires store.slug.Some?
    ensures StoredSlugs([store]) == [store.slug.value]
  {
    assert [store][1..] == [];
  }

  /** The pre-save hook. When `name` is not among the modified paths it does
      nothing; otherwise the slug becomes the slug of the name, suffixed by the
      number of stored slugs in its family plus one when that family is not
      empty. */
  function SaveHook(doc: Store, nameModified: bool, stores: seq<Store>): (saved: Store)
    requires doc.name.Some?
    ensures saved == doc.(slug := saved.slug)
  {
    if !nameModified then doc
    else
      var base := Slugs.Slugify(doc.name.value);
      doc.(slug := Some(Slugs.AssignSlug(base, StoredSlugs(stores))))
  }

  /** `save()`: validation first, then the hook; nothing is hooked on a
      refused document. */
  function Save(doc: Store, nameModified: bool, stores: seq<Store>): (r: Result<Store, seq<FieldError>>)
    ensures r.Err? <==> !Valid(doc)
    ensures r.Err? ==> r.error == Validate(doc) && r.error != []
    ensures r.Ok? ==> r.value == doc.(slug := r.value.slug)
    ensures r.Ok? && !nameModified ==> r.value.slug == doc.slug
    ensures r.Ok? && nameModified ==>
              && doc.name.Some?
              && r.value.slug == Some(Slugs.AssignSlug(Slugs.Slugify(doc.name.value), StoredSlugs(stores)))
  {
    ValidateReportsViolations(doc);
    var errs := Validate(doc);
    if errs != [] then Err(errs) else Ok(SaveHook(doc, nameModified, stores))
  }

  /** An unmodified name leaves the whole document, slug included, as it was. */
  lemma HookSkipsUnmodifiedName(doc: Store, stores: seq<Store>)
    requires doc.name.Some?
    ensures SaveHook(doc, false, stores) == doc
    ensures SaveHook(doc, false, stores).slug == doc.slug
  {
  }

  /** A modified name whose base slug has no family member in the collection
      gets the base slug itself. */
  lemma HookKeepsFreeBase(doc: Store, stores: seq<Store>)
    requires doc.name.Some?
    requires forall k :: 0 <= k < |stores| && stores[k].slug.Some? ==>
               !Slugs.InFamily(Slugs.Slugify(doc.name.value), stores[k].slug.value)
    ensures SaveHook(doc, true, stores).slug == Some(Slugs.Slugify(doc.name.value))
  {
    var slugs := StoredSlugs(stores);
    forall s | s in slugs
      ensures !Slugs.InFamily(Slugs.Slugify(doc.name.value), s)
    {
      var k :| 0 <= k < |stores| && stores[k].slug == Some(s);
    }
  }

  /** With N >= 1 family members stored, the slug is `base-(N+1)`. */
  lemma HookSuffixesByCount(doc: Store, stores: seq<Store>, n: nat)
    requires doc.name.Some?
    requires n == |Slugs.Matching(Slugs.Slugify(doc.name.value), StoredSlugs(stores))| && n >= 1
    ensures SaveHook(doc, true, stores).slug
            == Some(Slugs.Slugify(doc.name.value) + "-" + NatToString(n + 1))
  {
    Slugs.SuffixIsCountPlusOne(Slugs.Slugify(doc.name.value), StoredSlugs(stores), n);
  }

  /** A base slug some stored document already carries is never assigned. */
  lemma HookAvoidsTakenBase(doc: Store, stores: seq<Store>, k: nat)
    requires doc.name.Some?
    requires k < |stores| && stores[k].slug == Some(Slugs.Slugify(doc.name.value))
    ensures SaveHook(doc, true, stores).slug != Some(Slugs.Slugify(doc.name.value))
  {
    var base := Slugs.Slugify(doc.name.value);
    Slugs.LowerKeepsSlugText(base);
    Slugs.TakenBaseIsNotReused(base, StoredSlugs(stores), base);
  }
}

=== FILE: text.dfy ===
/** Character and string helpers shared by the model: ASCII case folding,
    JavaScript's `String.prototype.trim`, prefix tests, splitting on a
    separator, and decimal rendering of naturals. */
module Text {

  predicate IsDigit(c: char) {
    '0' <= c <= '9'
  }

  predicate IsLowerAlpha(c: char) {
    'a' <= c <= 'z'
  }

  predicate IsUpperAlpha(c: char) {
    'A' <= c <= 'Z'
  }

  predicate IsAsciiAlnum(c: char) {
    IsDigit(c) || IsLowerAlpha(c) || IsUpperAlpha(c)
  }

  predicate AllDigits(s: string) {
    forall i :: 0 <= i < |s| ==> IsDigit(s[i])
  }

  /** ASCII lower-casing; every other character is left alone. */
  function LowerChar(c: char): (d: char)
    ensures IsUpperAlpha(c) ==> IsLowerAlpha(d) && d as int == c as int + 32
    ensures !IsUpperAlpha(c) ==> d == c
    ensures IsDigit(d) <==> IsDigit(c)
  {
    if IsUpperAlpha(c) then (c as int + 32) as char else c
  }

  function Lower(s: string): (r: string)
    ensures |r| == |s|
    ensures forall i :: 0 <= i < |s| ==> r[i] == LowerChar(s[i])
  {
    seq(|s|, i requires 0 <= i < |s| => LowerChar(s[i]))
  }

  /** Lower-casing works character by character from the front. */
  lemma LowerCons(w: string)
    requires w != []
    ensures Lower(w) == [LowerChar(w[0])] + Lower(w[1..])
  {
  }

  /** The characters JavaScript's `trim` removes: the WhiteSpace and
      LineTerminator productions of ECMAScript (TAB, VT, FF, SP, NBSP,
      ZWNBSP, every Zs space separator, LF, CR, LS, PS). */
  predicate IsJsWhitespace(c: char) {
    c == '\U{0009}' || c == '\U{000B}' || c == '\U{000C}' || c == '\U{0020}'
    || c == '\U{00A0}' || c == '\U{FEFF}' || c == '\U{1680}'
    || ('\U{2000}' <= c <= '\U{200A}') || c == '\U{202F}' || c == '\U{205F}'
    || c == '\U{3000}' || c == '\U{000A}' || c == '\U{000D}'
    || c == '\U{2028}' || c == '\U{2029}'
  }

  predicate AllWhitespace(s: string) {
    forall i :: 0 <= i < |s| ==> IsJsWhitespace(s[i])
  }

  /** `s` without its leading whitespace: a suffix of `s` whose dropped
      prefix is all whitespace and which does not start with whitespace. */
  function TrimStart(s: string): (r: string)
    ensures |r| <= |s| && r == s[|s| - |r|..]
    ensures AllWhitespace(s[..|s| - |r|])
    ensures r == [] || !IsJsWhitespace(r[0])
  {
    if s != [] && IsJsWhitespace(s[0]) then
      var r := TrimStart(s[1..]);
      TrimStartStep(s, r);
      r
    else s
  }

  /** `s` without its trailing whitespace: a prefix of `s` whose dropped
      suffix is all whitespace and which does not end with whitespace. */
  function TrimEnd(s: string): (r: string)
    ensures |r| <= |s| && r == s[..|r|]
    ensures AllWhitespace(s[|r|..])
    ensures r == [] || !IsJsWhitespace(r[|r| - 1])
  {
    if s != [] && IsJsWhitespace(s[|s| - 1]) then
      var r := TrimEnd(s[..|s| - 1]);
      TrimEndStep(s, r);
      r
    else s
  }

  /** A suffix of `s[1..]` behind a whitespace run is one of `s` when `s[0]`
      is whitespace too. */
  lemma TrimStartStep(s: string, r: string)
    requires s != [] && IsJsWhitespace(s[0])
    requires |r| <= |s[1..]| && r == s[1..][|s[1..]| - |r|..]
    requires AllWhitespace(s[1..][..|s[1..]| - |r|])
    ensures |r| <= |s| && r == s[|s| - |r|..]
    ensures AllWhitespace(s[..|s| - |r|])
  {
    var n := |s| - |r|;
    forall i | 0 <= i < n
      ensures IsJsWhitespace(s[..n][i])
    {
      if i > 0 {
        assert s[..n][i] == s[1..][..n - 1][i - 1];
      }
    }
  }

  /** A prefix of `s[..|s| - 1]` before a whitespace run is one of `s` when
      the last character of `s` is whitespace too. */
  lemma TrimEndStep(s: string, r: string)
    requires s != [] && IsJsWhitespace(s[|s| - 1])
    requires |r| <= |s| - 1 && r == s[..|s| - 1][..|r|]
    requires AllWhitespace(s[..|s| - 1][|r|..])
    ensures |r| <= |s| && r == s[..|r|]
    ensures AllWhitespace(s[|r|..])
  {
    forall i | 0 <= i < |s| - |r|
      ensures IsJsWhitespace(s[|r|..][i])
    {
      if i < |s| - 1 - |r| {
        assert s[|r|..][i] == s[..|s| - 1][|r|..][i];
      }
    }
  }

  /** JavaScript `s.trim()`, applied by the schema's `trim: true` setter. */
  function Trim(s: string): (r: string)
    ensures r == [] || (!IsJsWhitespace(r[0]) && !IsJsWhitespace(r[|r| - 1]))
  {
    TrimEnd(TrimStart(s))
  }

  /** Trimming only removes whitespace from the two ends: `s` is the trimmed
      text with a run of whitespace on either side. */
  lemma TrimKeepsInterior(s: string)
    ensures exists i, j :: 0 <= i <= j <= |s| && Trim(s) == s[i..j]
                           && AllWhitespace(s[..i]) && AllWhitespace(s[j..])
  {
    var a := TrimStart(s);
    var i := |s| - |a|;
    var b := TrimEnd(a);
    var j := i + |b|;
    assert Trim(s) == s[i..j] by {
      assert a == s[i..];
      assert b == a[..|b|];
    }
    assert AllWhitespace(s[j..]) by {
      assert s[j..] == a[|b|..];
    }
  }

  /** A string with no whitespace at either end is its own trim. */
  lemma TrimUnpadded(s: string)
    requires s != [] && !IsJsWhitespace(s[0]) && !IsJsWhitespace(s[|s| - 1])
    ensures Trim(s) == s
  {
    assert TrimStart(s) == s;
    assert TrimEnd(s) == s;
  }

  /** A trimmed string is empty exactly when the original held only whitespace. */
  lemma TrimEmptyIffBlank(s: string)
    ensures Trim(s) == [] <==> AllWhitespace(s)
  {
    var a := TrimStart(s);
    if Trim(s) == [] {
      assert AllWhitespace(a[0..]);
      assert s == s[..|s| - |a|];
    }
  }

  /** Trimming twice is the same as trimming once. */
  lemma TrimIdempotent(s: string)
    ensures Trim(Trim(s)) == Trim(s)
  {
    var t := Trim(s);
    if t != [] {
      assert TrimStart(t) == t;
      assert TrimEnd(t) == t;
    }
  }

  predicate StartsWith(s: string, prefix: string) {
    |prefix| <= |s| && s[..|prefix|] == prefix
  }

  /** JavaScript `s.split(sep)` for a one-character separator: the maximal
      runs between separators, in order, with empty runs kept. */
  function Split(s: string, sep: char): (parts: seq<string>)
    ensures |parts| >= 1
    ensures forall k, i :: 0 <= k < |parts| && 0 <= i < |parts[k]| ==> parts[k][i] != sep
    decreases |s|
  {
    if s == [] then [[]]
    else if s[0] == sep then [[]] + Split(s[1..], sep)
    else
      var rest := Split(s[1..], sep);
      [[s[0]] + rest[0]] + rest[1..]
  }

  function Join(parts: seq<string>, sep: char): string
    requires |parts| >= 1
  {
    if |parts| == 1 then parts[0] else parts[0] + [sep] + Join(parts[1..], sep)
  }

  /** Splitting loses nothing: joining the parts back gives the original. */
  lemma {:induction false} SplitJoin(s: string, sep: char)
    ensures Join(Split(s, sep), sep) == s
    decreases |s|
  {
    if s == [] {
    } else if s[0] == sep {
      SplitJoin(s[1..], sep);
      assert [sep] + s[1..] == s;
    } else {
      var rest := Split(s[1..], sep);
      SplitJoin(s[1..], sep);
      var first := [s[0]] + rest[0];
      assert Split(s, sep) == [first] + rest[1..];
      if |rest| == 1 {
        assert rest[0] == s[1..];
        assert [first] + rest[1..] == [first];
        assert first == s;
      } else {
        var j := Join(rest[1..], sep);
        assert Join([first] + rest[1..], sep) == first + [sep] + j by {
          assert ([first] + rest[1..])[1..] == rest[1..];
        }
        assert s[1..] == rest[0] + [sep] + j;
        assert s == [s[0]] + s[1..];
        assert first + [sep] + j == [s[0]] + (rest[0] + [sep] + j);
      }
    }
  }

  /** The text before the first separator is the first part. */
  lemma {:induction false} SplitFirstPart(head: string, sep: char, tail: string)
    requires forall i :: 0 <= i < |head| ==> head[i] != sep
    ensures |Split(head + [sep] + tail, sep)| >= 2
    ensures Split(head + [sep] + tail, sep)[0] == head
    ensures Split(head + [sep] + tail, sep)[1..] == Split(tail, sep)
    decreases |head|
  {
    var s := head + [sep] + tail;
    if head == [] {
      assert s[1..] == tail;
    } else {
      assert s[1..] == head[1..] + [sep] + tail;
      SplitFirstPart(head[1..], sep, tail);
      assert [head[0]] + head[1..] == head;
    }
  }

  /** A string without the separator is a single part. */
  lemma {:induction false} SplitNoSeparator(s: string, sep: char)
    requires forall i :: 0 <= i < |s| ==> s[i] != sep
    ensures Split(s, sep) == [s]
    decreases |s|
  {
    if s != [] {
      SplitNoSeparator(s[1..], sep);
      assert [s[0]] + s[1..] == s;
    }
  }

  function DigitChar(d: nat): (c: char)
    requires d < 10
    ensures IsDigit(c)
  {
    ('0' as int + d) as char
  }

  function DigitValue(c: char): nat
    requires IsDigit(c)
  {
    c as int - '0' as int
  }

  /** The decimal rendering of `n`, without leading zeros, as JavaScript's
      template literal `${n}` prints a non-negative integer. */
  function NatToString(n: nat): (s: string)
    ensures |s| >= 1 && AllDigits(s)
    ensures s[0] == '0' ==> n == 0
  {
    if n < 10 then [DigitChar(n)] else NatToString(n / 10) + [DigitChar(n % 10)]
  }

  /** The natural a string of decimal digits denotes. */
  function DigitsValue(s: string): nat
    requires AllDigits(s)
  {
    if s == [] then 0 else 10 * DigitsValue(s[..|s| - 1]) + DigitValue(s[|s| - 1])
  }

  /** Reading back a rendered natural gives the natural. */
  lemma {:induction false} NatToStringRoundTrip(n: nat)
    ensures DigitsValue(NatToString(n)) == n
  {
    var s := NatToString(n);
    if n >= 10 {
      NatToStringRoundTrip(n / 10);
      assert s[..|s| - 1] == NatToString(n / 10);
    }
  }

  /** Distinct naturals render differently. */
  lemma NatToStringInjective(m: nat, n: nat)
    requires NatToString(m) == NatToString(n)
    ensures m == n
  {
    NatToStringRoundTrip(m);
    NatToStringRoundTrip(n);
  }
}

=== FILE: wrappers.dfy ===
/** Failure-compatible wrappers used across the model: an optional value and a
    success-or-error result. */
module Wrappers {

  /** A value that may be absent (a missing request field, a `null` query result). */
  datatype Option<+T> = None | Some(value: T) {

    /** The wrapped value, or `default` when absent. */
    function GetOr(default: T): T {
      match this
      case Some(v) => v
      case None => default
    }
  }

  /** The outcome of an operation that can be refused with an error. */
  datatype Result<+R, +E> = Ok(value: R) | Err(error: E)
}
